=== FILE: README.md ===
# Building-footprint API: a Dafny model

This project models the request handling of a small read-only web service.
The service publishes building footprints from one table. Each row of the
table holds an `id`, a nullable `municipality_name` and a geometry. The
service presents the data in the shape of OGC API - Features. The model covers:

- the collection catalog (`/collections`). Each municipality is one collection,
  with a slug id, a title, a description, a building count and an `items` link.
- one municipality's items (`/collections/{municipality}/items`), a paged
  FeatureCollection.
- one building (`/collections/{municipality}/items/{id}`), a Feature or a 404.
- the bounding-box search (`/buildings/bbox`), a paged FeatureCollection of the
  buildings whose geometry intersects the box.
- the helpers these share:
  - the validation of `limit` (default 50, from 1 to 1000) and `offset`
    (default 0, at least 0);
  - the mapping of a result row to a GeoJSON Feature by column name;
  - the construction of the `self`, `next` and `prev` links. These links keep
    every other query parameter of the request and rewrite only `offset` and
    `limit`.

The database is a sequence of `Building` values in the table's scan order.

- A `WHERE` clause is a `Filter` predicate.
- `count(*)` is the number of matching rows.
- `LIMIT ? OFFSET ?` is a slice of the matching rows.

A request is its full URL plus the service root URL. The full URL is the
decoded path followed by `?` and the raw query string. The model reads the
query parameters from the text after the URL's first `?`. The framework reads
them from the request's own query string instead. The two agree exactly when
the decoded path holds no `?` (`Pagination.ParamDictOfQuery`); see "Left out"
for a path that does. The query text is split on `&`, empty pieces are
dropped, and each piece is split at its first `=`. The model does no percent-decoding and does not
turn `+` into a space, although the web framework does both (see "Left out").
The pairs are folded into a dictionary the way Python's `dict(...)` does it:
the first position of a key and its last value win.

Modules, one per file:

| file | module | what it holds |
|---|---|---|
| `wrappers.dfy` | `Wrappers`, `Arith` | `Option`, `Result`, `Min`, `Max` |
| `strings.dfy` | `Strings` | split and join on one character, replace, decimal integers |
| `query_params.dfy` | `QueryParams` | query parameters as an insertion-ordered dictionary, parse and render of a query string |
| `pagination.dfy` | `Pagination` | the base URL, the parameter dictionary, the `self`/`next`/`prev` links |
| `features.dfy` | `Features` | result rows, the column map, the row-to-Feature mapping |
| `store.dfy` | `Store` | the building table, filters, count, `LIMIT`/`OFFSET` |
| `collections.dfy` | `Collections` | the catalog and the slug |
| `endpoints.dfy` | `Endpoints` | parameter validation, the three paged or single-item handlers, following `next` links |

Behaviour of the code that the model keeps:

- Slugs can collide: `"a b"` and `"a-b"` both give `a-b`
  (`Collections.SlugNotInjective`).
- The `items` link of a collection uses the raw municipality name, not the slug.
- The kept query parameters stay in the dictionary's insertion order
  (`Pagination.WithPagingKeepsPositions`).
- The handlers have no error handling of their own. A row that cannot be
  mapped to a Feature raises, and the framework answers with a 500, modelled
  as `ServerError("Internal Server Error")`. For rows built from a `Building`
  the mapping always succeeds (`Store.DataRowMaps`, `Endpoints.DataRowsMap`).
  That rests on the `Building` type, whose geometry is never NULL (see
  "Left out").
- The data queries have no `ORDER BY`. Paging is modelled over a fixed scan
  order, the order of the store sequence.
- The bounding box's axis order is not checked: an inverted box is passed on
  as given.

## Model

| member | source | states |
|---|---|---|
| Strings.Split | src/02_api.py:92-93 | the pieces contain no separator, there is at least one, and joining them gives back the string |
| Strings.SplitJoin | src/02_api.py:93-104 | splitting a join of separator-free pieces gives back the pieces, so a query string joined with `&` reads back piece by piece |
| Strings.SplitFirst | src/02_api.py:92 | the part before the first separator holds no separator; with a separator present, the string is that part, the separator and the rest; without one, the rest is empty |
| Strings.Replace | src/02_api.py:143 | the replaced character no longer occurs (when the replacement does not contain it), a string without it is unchanged, and every character comes from the input or the replacement; with a one-character replacement the result has the input's length and each position holds the replacement where the input has `c` and the input's character elsewhere |
| Strings.ReplaceAppend | src/02_api.py:143 | replacing in a concatenation is the concatenation of the replacements, so with the one-character case the result of every input, removal included, is fixed |
| Strings.IntToString | src/02_api.py:101-104 | the decimal text of an integer consists of digits and `-` and parses back to the same integer |
| QueryParams.KeyIndex | src/02_api.py:93 | the first position holding a key: absent exactly when no pair has the key, and no earlier pair has it |
| QueryParams.Lookup | src/02_api.py:93 | `d.get(k)` is absent exactly when the key is missing, and otherwise is the value of a pair with that key |
| QueryParams.Assign | src/02_api.py:101-102 | `d[k] = v` overwrites the key in place or appends it at the end, and leaves every other entry and every key position as it was |
| QueryParams.AssignLookup | src/02_api.py:101-102 | after `d[k] = v`, `k` reads as `v` and every other key reads as before |
| QueryParams.AssignKeepsUnique | src/02_api.py:101-102 | an assignment keeps every key unique |
| QueryParams.AssignTwice | src/02_api.py:110-111 | assigning one key twice is the same as assigning only the second value |
| QueryParams.ReassignFirst | src/02_api.py:101-111 | writing `offset`, then `limit`, then `offset` again is the same as writing the final `offset`, then `limit` |
| QueryParams.ToDict | src/02_api.py:93 | `dict(pairs)` has unique keys and keeps pairs free of `&` and `=` |
| QueryParams.ToDictKeyOrder | src/02_api.py:93 | `dict(pairs)` holds exactly the keys of the pairs, each once, in the order of each key's first occurrence |
| QueryParams.ToDictLastValue | src/02_api.py:93 | in `dict(pairs)` each key carries the value of its last pair |
| QueryParams.ToDictOfDict | src/02_api.py:93 | converting a list with unique keys to a dict changes nothing |
| QueryParams.ParseQuery | src/02_api.py:93 | the parameters read from a query string carry no `&` in keys or values and no `=` in keys |
| QueryParams.RenderPieces | src/02_api.py:103-104 | the rendered query string of no parameters is empty, and that of writable parameters splits at `&` into one `k=v` piece per parameter, in order |
| QueryParams.ParseRender | src/02_api.py:104 | reading back the rendered `k=v&...` string of a list of parameters gives the list itself |
| Pagination.BaseUrl | src/02_api.py:92 | the base URL is the URL up to its first `?`, holds no `?`, is the whole URL when there is no `?`, and with the query string it rebuilds the URL |
| Pagination.ParamDict | src/02_api.py:93 | the request's parameter dictionary has unique keys and renderable entries |
| Pagination.ParamDictOfQuery | src/02_api.py:92-93 | for a URL whose decoded path holds no `?`, the parameter dictionary is the dict of the query string after the path |
| Pagination.QueryMarkInPath | src/02_api.py:92-93 | for a decoded path `a?b`, the base URL is cut at `a` and the query read is `b?` followed by the real query, so the path's tail becomes part of the first key |
| Pagination.WithPaging | src/02_api.py:101-102 | rewriting `offset` and `limit` keeps a dictionary a dictionary and keeps it renderable |
| Pagination.WithPagingLookup | src/02_api.py:101-102 | after the rewrite, `offset` and `limit` read as the new numbers and every other parameter reads as in the request |
| Pagination.WithPagingKeepsPositions | src/02_api.py:101-104 | the rewrite keeps every existing key at its position and every other entry unchanged, and it appends at most `offset` and `limit` |
| Pagination.WithPagingTwice | src/02_api.py:101-111 | rewriting a second time with the same limit leaves only the second offset: the `prev` link does not depend on the `next` link's writes |
| Pagination.PrevOffset | src/02_api.py:109 | the previous offset is `offset - limit` when that is not negative and 0 otherwise, so it is never negative and is below a positive offset |
| Pagination.CreatePaginationLinks | src/02_api.py:90-115 | the links are `self` with the request URL first, a `next` link exactly when `offset + limit < total`, a `prev` link exactly when `offset > 0`, last, and no other; `next` and `prev` carry the base URL and the request's parameters with `offset` and `limit` rewritten |
| Pagination.PageHrefRoundTrip | src/02_api.py:92-113 | a paging link has the request's base URL, and its query string reads back as the request's parameters with `offset` and `limit` rewritten |
| Pagination.NextLinkQuery | src/02_api.py:100-105 | the `next` link's parameters are the request's own, paged to `offset + limit` with the same limit |
| Pagination.NextLinkAdvances | src/02_api.py:100-105 | the `next` link reads `offset + limit` and `limit`, and every other parameter as the request does |
| Pagination.PrevLinkRetreats | src/02_api.py:108-113 | the `prev` link reads `max(0, offset - limit)` and `limit`, and every other parameter as the request does |
| Features.ColumnIndex | src/02_api.py:72 | `{name: i for i, name in enumerate(cols)}` maps a name to its last position, and is absent exactly when the name is not a column |
| Features.Column | src/02_api.py:74-82 | `row[col_map[name]]` succeeds exactly when the column exists and the row reaches its position, and then gives that cell |
| Features.FromRow | src/02_api.py:68-87 | a row maps exactly when its `id`, `municipality_name` and `geometry_geojson` cells exist and the geometry is text; the Feature then has type `Feature`, the `str` of the id, the municipality cell and the geometry text |
| Features.ColumnPermuted | src/02_api.py:72-82 | with distinct column names, reordering the columns together with the row cells reads every column the same |
| Features.FromRowPermutation | src/02_api.py:68-87 | with distinct column names, the Feature does not depend on the column order |
| Store.Where | src/02_api.py:181 | the rows satisfying a filter are exactly the table rows that match it: each matching row as often as in the table, no other row, and no more of them than rows |
| Store.WhereAll | src/02_api.py:181 | the filter keeps every row exactly when every row matches it |
| Store.CountQuery | src/02_api.py:171-172 | the count is at most the number of rows, and equals it exactly when every row matches |
| Store.CountZeroIff | src/02_api.py:171-172 | a count query gives 0 exactly when no row matches |
| Store.LimitOffset | src/02_api.py:182-183 | `LIMIT l OFFSET o` keeps `min(l, max(0, n - o))` rows, the ones starting at position `o` |
| Store.DataRowMaps | src/02_api.py:175-189 | a row of the data query always maps, to a Feature whose id is the building's id |
| Collections.Slug | src/02_api.py:143 | a slug holds no apostrophe and no space, is no longer than the name, equals a name that has neither, and holds only `-` and characters of the name |
| Collections.SlugIdempotent | src/02_api.py:143 | slugging a slug changes nothing |
| Collections.SlugNotInjective | src/02_api.py:143 | two different names, `"a b"` and `"a-b"`, share a slug |
| Collections.ItemsLink | src/02_api.py:148-153 | an `items` link has rel `items`, the GeoJSON media type and the collection's title, and the municipality name reads back from its href |
| Collections.ItemsLinkNameInverse | src/02_api.py:149 | every href from which a name reads back is the `items` link of that name |
| Collections.CollectionOf | src/02_api.py:141-155 | a catalog entry carries the row's count, one `items` link naming the municipality, the link's title as its own, and as id the slug of the name: no apostrophe or space, the name itself when it has neither, and unchanged by slugging again |
| Collections.ListCollections | src/02_api.py:139-158 | one collection per aggregate row, in row order, with the row's name and count and an `items` link at `{base}collections/{name}/items` |
| Collections.CollectionCounts | src/02_api.py:128-146 | over the table's aggregate, each collection's building count is the number of its buildings, at least 1 |
| Collections.CollectionsOrdered | src/02_api.py:132 | over the table's aggregate, collections come in non-increasing order of building count |
| Collections.CollectionsCover | src/02_api.py:128-153 | every municipality in the table has a collection whose `items` link names it and whose count is its number of buildings |
| Collections.CollectionLinksDistinct | src/02_api.py:148-153 | no two collections of the catalog share an `items` link |
| Endpoints.LimitValidCases | src/02_api.py:165 | an absent `limit` passes (default 50), a `limit` that is not integer text fails, and the text of an integer passes exactly when it is from 1 to 1000 |
| Endpoints.OffsetValidCases | src/02_api.py:166 | an absent `offset` passes (default 0), an `offset` that is not integer text fails, and the text of an integer passes exactly when it is at least 0 |
| Endpoints.Failing | src/02_api.py:228-233 | the failing fields are exactly the declared fields that fail validation |
| Endpoints.PagingErrors | src/02_api.py:165-166 | `limit` is reported exactly when it is invalid, and `offset` likewise |
| Endpoints.ValidatePaging | src/02_api.py:165-166 | validation succeeds exactly when `limit` is an integer from 1 to 1000 (default 50) and `offset` an integer of at least 0 (default 0), and returns the parsed values; otherwise it is a validation error naming exactly the invalid fields |
| Endpoints.ValidateWithPaging | src/02_api.py:100-111 | parameters rewritten with a valid page validate to exactly that page |
| Endpoints.PageHrefValidates | src/02_api.py:100-113 | a paging link built from a request with a valid page validates to exactly that page |
| Endpoints.FeaturesOf | src/02_api.py:189 | the list of rows maps exactly when every row maps, and then gives one Feature per row, in order |
| Endpoints.DataRowsMap | src/02_api.py:186-189 | the rows of the data query always map, to the Features of their buildings |
| Endpoints.PageMatches | src/02_api.py:181-183 | every building on a page is in the table and satisfies the page's filter |
| Endpoints.DataQuery | src/02_api.py:175-187 | the data query returns `min(limit, max(0, count - offset))` rows, the `i`-th being the row of the matching building at position `offset + i` |
| Endpoints.ServePage | src/02_api.py:189-200 | a valid page has `numberMatched` equal to the count, `numberReturned` equal to the feature count `min(limit, max(0, matched - offset))`, the validated limit and offset, the Features of the slice, and the paging links |
| Endpoints.GetMunicipalityItems | src/02_api.py:161-200 | the listing succeeds exactly when paging validates, and otherwise returns that validation error; a success counts the municipality's buildings, serves the requested slice of them with `numberReturned` equal to its length `min(limit, max(0, matched - offset))`, and carries the paging links |
| Endpoints.MunicipalityItemsBelong | src/02_api.py:181-189 | every Feature on a municipality's page belongs to that municipality |
| Endpoints.UnknownMunicipalityIsEmpty | src/02_api.py:170-200 | an unknown municipality is not an error: it yields an empty page with `numberMatched = 0` |
| Endpoints.NextLinkValidates | src/02_api.py:100-105 | the `next` link of a valid page validates to the same limit and `offset + limit` |
| Endpoints.NextRequestParams | src/02_api.py:100-105 | the request a client makes from a page's `next` link validates to that page's limit and `offset + limit` |
| Endpoints.NextPageFollows | src/02_api.py:190-200 | following a page's `next` link gives a page at `offset + limit`, with the same limit and the same `numberMatched` |
| Endpoints.PrevPageFollows | src/02_api.py:190-200 | following a page's `prev` link gives a page at `max(0, offset - limit)`, strictly before the current one, with the same limit and the same `numberMatched` |
| Endpoints.NextIsCloser | src/02_api.py:100-105 | following `next` brings a client strictly closer to the end of the matches, so a chain of `next` links is finite |
| Endpoints.PageThenRest | src/02_api.py:182-183 | a page that is not the last, followed by everything after it, is everything from its offset on |
| Endpoints.LastPage | src/02_api.py:182-183 | the last page holds everything from its offset on |
| Endpoints.CrawlCollectsAll | src/02_api.py:161-200 | following `next` links from a valid listing request visits every matching building from its offset on, once each, in order |
| Endpoints.CrawlFromStart | src/02_api.py:166 | from a request without `offset`, following `next` links visits every building of the municipality, once each, in order |
| Endpoints.GetSpecificBuilding | src/02_api.py:203-222 | the lookup fails exactly when no building has that id in that municipality, with a 404 "Building not found."; otherwise it is the Feature of the first such building, carrying that id and municipality |
| Endpoints.BboxErrors | src/02_api.py:228-233 | a validation error names each coordinate that is missing or not a number, and `limit` and `offset` exactly when they are invalid |
| Endpoints.ValidateBbox | src/02_api.py:228-233 | bbox validation succeeds exactly when all four coordinates read as numbers and paging validates; the box is the four numbers, and otherwise the error names exactly the failing fields |
| Endpoints.QueryByBbox | src/02_api.py:225-271 | the search succeeds exactly when validation does, and otherwise returns the validation error; a success counts the buildings that intersect the box, serves the requested slice of them with `numberReturned` equal to its length `min(limit, max(0, matched - offset))`, and carries the paging links |
| Endpoints.BboxItemsIntersect | src/02_api.py:241-260 | the geometry of every Feature the search returns intersects the requested box |
| Endpoints.DisjointBboxIsEmpty | src/02_api.py:243-271 | a valid box that meets no building gives an empty page with `numberMatched = 0`, not an error |

## Left out

- Database access is not modelled. `run_db_query` opens DuckDB and loads the spatial extension. Its `DB Error` 500 for a failing query is left out; the table is an in-memory sequence.
- DuckDB spatial functions are parameters. `ST_Intersects` is a parameter `(Geometry, Bbox) -> bool`. The WKT polygon text built from the four floats is not modelled; the box is passed as its four numbers.
- Geometry is opaque: it is its GeoJSON text. `json.loads` rejecting invalid JSON text is not modelled; a geometry cell that is not text maps to a row-mapping error.
- Float parsing of the coordinates is a parameter `string -> Option<real>`. Floating-point arithmetic is not modelled.
- Endpoints.ValidatePaging: accepts only an optional `-` followed by decimal digits, which is narrower than the framework's integer coercion (surrounding whitespace, a leading `+`, or `1.0`).
- Endpoints.ValidatePaging: reports a validation error as the list of failing fields only; the framework's messages and the order of the `loc` entries are not modelled.
- Query strings are read as raw text. The framework percent-decodes keys and values and turns `+` into a space; the handlers then write the decoded values back into the `next` and `prev` links without encoding them (src/02_api.py:104, 112). The model neither decodes nor encodes, so the link lemmas below hold only when no decoded key or value contains `&`, `=`, `%`, `+` or `#`. Counterexample: `GET /collections/D/items?offset=0&x=%26offset%3D0&limit=2` over three buildings in D. The program reads `x` as `&offset=0` and emits the `next` link `...?offset=2&x=&offset=0&limit=2`. That link reads back with `offset` 0, the last value, so the next page repeats the first and following `next` links never ends. Likewise `q=%2B` comes back as `q=+`, which reads as a space.
- Pagination.PageHrefRoundTrip: holds only for the undecoded reading of query strings described above.
- Pagination.NextLinkQuery: holds only for the undecoded reading of query strings described above.
- Pagination.NextLinkAdvances: holds only for the undecoded reading of query strings described above.
- Pagination.PrevLinkRetreats: holds only for the undecoded reading of query strings described above.
- Endpoints.PageHrefValidates: holds only for the undecoded reading of query strings described above.
- Endpoints.NextLinkValidates: holds only for the undecoded reading of query strings described above.
- Endpoints.NextRequestParams: holds only for the undecoded reading of query strings described above.
- Endpoints.NextPageFollows: holds only for the undecoded reading of query strings described above, and only for a municipality name the link's path routes back to, as described below.
- Endpoints.PrevPageFollows: holds only for the undecoded reading of query strings described above, and only for a municipality name the link's path routes back to, as described below.
- Endpoints.NextIsCloser: holds only for the undecoded reading of query strings described above; with decoding, the counterexample above gives a `next` chain that never ends. It also needs a municipality name the link's path routes back to, as described below.
- Endpoints.CrawlCollectsAll: holds only for the undecoded reading of query strings described above, and only for a municipality name the link's path routes back to, as described below.
- Endpoints.CrawlFromStart: holds only for the undecoded reading of query strings described above, and only for a municipality name the link's path routes back to, as described below.
- Following a link is modelled as the same handler called again for the same municipality. The program builds `next` and `prev` from `str(request.url)`, whose path is percent-decoded, and writes that path back without encoding it (src/02_api.py:92, 105, 113). The link routes back to the same municipality only when its name holds no `?`, no `#`, no `/` and no `%` followed by two hex digits. Counterexample: `GET /collections/%2541/items?limit=1` over two buildings in `%41`. The `next` href is `.../collections/%41/items?limit=1&offset=1`, which the server decodes to municipality `A`, so `numberMatched` changes and the crawl leaves the collection. A name holding `#` gives a 404.
- Pagination.ParamDict: assumes the decoded path holds no `?`. The framework reads the parameters from the request's own query string. `str(request.url)` joins the decoded path with that string, and the model splits it at the first `?`. Counterexample: `GET /collections/a%3Fb/items?limit=2`. The program validates `limit` 2, and `limit=0` gives a 422. The model reads the single key `b/items?limit` and serves the default limit 50 (`Pagination.QueryMarkInPath`). Every member built on the parameter dictionary inherits this assumption, the two listing handlers included.
- NULL geometries are excluded by the `Building` type, whose `geometry` is always present. In the table a NULL geometry makes `ST_AsGeoJSON` return NULL (src/02_api.py:179), and `json.loads(None)` raises `TypeError` (src/02_api.py:82), which the framework turns into a 500.
- Store.DataRowMaps: covers only buildings with a geometry; a NULL geometry would fail to map, as described above.
- Endpoints.DataRowsMap: covers only buildings with a geometry; a NULL geometry would make the page a 500, as described above.
- Routing is not modelled: FastAPI's path matching, the `/ping` health check, response-model validation and JSON serialisation are left out. The handlers are functions of the table and the request.
- The path parameters (municipality name, building id) are taken as already decoded strings.
- Concurrency is not modelled: the count and the data query see the same table, as with a read-only database.
- The catalog's `GROUP BY municipality_name ... ORDER BY count(*) DESC` query is stated as a property of its result rows (`Collections.IsMunicipalityAggregate`: every named municipality once, with its count, in non-increasing count order) rather than computed. Tie order among equal counts is left to the database.
- `01_backend_setup.py`, which loads the table, is not part of this model.

=== FILE: collections.dfy ===
/**
 The collection catalog: one collection per municipality, identified by a
 URL slug of its name, carrying its building count and one `items` link.
 The rows come from the aggregate query that groups the non-null
 municipality names with their counts, largest count first.
 */
module Collections {
  import opened Wrappers
  import opened Strings
  import opened Pagination
  import opened Store

  datatype CollectionItem = CollectionItem(
    id: string,
    title: string,
    description: string,
    itemType: string,
    buildingCount: int,
    links: seq<Link>)

  /**
   `name.replace("'", "").replace(" ", "-")`: apostrophes dropped, spaces
   turned into hyphens.
   */
  function Slug(name: string): (slug: string)
    ensures '\'' !in slug && ' ' !in slug
    ensures |slug| <= |name|
    ensures '\'' !in name && ' ' !in name ==> slug == name
    ensures forall ch :: ch in slug ==> ch == '-' || (ch in name && ch != '\'' && ch != ' ')
  {
    Replace(Replace(name, '\'', ""), ' ', "-")
  }

  /** Slugging a slug changes nothing. */
  lemma SlugIdempotent(name: string)
    ensures Slug(Slug(name)) == Slug(name)
  {
  }

  /** Two different names can share a slug, so the slug does not identify a municipality by itself. */
  lemma SlugNotInjective()
    ensures "a b" != "a-b" && Slug("a b") == Slug("a-b")
  {
    assert "a b"[1] != "a-b"[1];
    assert Replace("a b", '\'', "") == "a b";
    assert Replace("a-b", '\'', "") == "a-b";
    assert Replace("a-b", ' ', "-") == "a-b";
    assert Replace("b", ' ', "-") == "b";
    assert Replace(" b", ' ', "-") == "-" + Replace("b", ' ', "-");
    assert Replace("a b", ' ', "-") == "a" + Replace(" b", ' ', "-");
  }

  function ItemsTitle(name: string): string {
    "Buildings in " + name
  }

  /**
   The municipality name an `items` link under `root` names: the text
   between `{root}collections/` and the final `/items`.
   */
  function ItemsLinkName(root: string, href: string): Option<string> {
    var prefix := root + "collections/";
    if |href| >= |prefix| + 6 && href[..|prefix|] == prefix && href[|href| - 6..] == "/items" then
      Some(href[|prefix|..|href| - 6])
    else None
  }

  /** The `items` link of a municipality: `{base}collections/{name}/items`, using the name, not the slug. */
  function ItemsLink(root: string, name: string): (r: Link)
    ensures ItemsLinkName(root, r.href) == Some(name)
    ensures r.rel == ItemsRel && r.mediaType == GeoJsonMediaType && r.title == ItemsTitle(name)
  {
    var href := root + "collections/" + name + "/items";
    assert href[..|root + "collections/"|] == root + "collections/";
    assert href[|href| - 6..] == "/items";
    assert href[|root + "collections/"|..|href| - 6] == name;
    Link(href, ItemsRel, GeoJsonMediaType, ItemsTitle(name))
  }

  /** Every href `ItemsLinkName` accepts is the `items` link of the name it reads. */
  lemma ItemsLinkNameInverse(root: string, href: string)
    ensures ItemsLinkName(root, href).Some? ==> ItemsLink(root, ItemsLinkName(root, href).value).href == href
  {
    var prefix := root + "collections/";
    if ItemsLinkName(root, href).Some? {
      var name := ItemsLinkName(root, href).value;
      assert href == href[..|prefix|] + href[|prefix|..|href| - 6] + href[|href| - 6..];
      assert ItemsLink(root, name).href == prefix + name + "/items";
    }
  }

  /** The catalog entry of one aggregate row. */
  function CollectionOf(root: string, name: string, count: int): (r: CollectionItem)
    ensures r.buildingCount == count
    ensures |r.links| == 1 && r.links[0] == ItemsLink(root, name)
    ensures ItemsLinkName(root, r.links[0].href) == Some(name)
    ensures r.title == r.links[0].title == ItemsTitle(name)
    ensures r.id == Slug(name)
    ensures '\'' !in r.id && ' ' !in r.id && Slug(r.id) == r.id
    ensures '\'' !in name && ' ' !in name ==> r.id == name
  {
    SlugIdempotent(name);
    CollectionItem(
      Slug(name),
      ItemsTitle(name),
      "Building footprints for " + name + " municipality",
      "feature",
      count,
      [ItemsLink(root, name)])
  }

  /** `list_collections`: one item per aggregate row, in the same order. */
  function ListCollections(req: Request, rows: seq<(string, int)>): (items: seq<CollectionItem>)
    ensures |items| == |rows|
    ensures forall i :: 0 <= i < |rows| ==> items[i] == CollectionOf(req.baseUrl, rows[i].0, rows[i].1)
  {
    seq(|rows|, i requires 0 <= i < |rows| => CollectionOf(req.baseUrl, rows[i].0, rows[i].1))
  }

  /**
   What the aggregate query returns for a store: each non-null municipality
   name exactly once, with the number of its buildings, in non-increasing
   order of count.
   */
  predicate IsMunicipalityAggregate(store: seq<Building>, rows: seq<(string, int)>) {
    && (forall i, j :: 0 <= i < j < |rows| ==> rows[i].0 != rows[j].0)
    && (forall i :: 0 <= i < |rows| ==> rows[i].1 == CountOf(store, rows[i].0))
    && (forall i :: 0 <= i < |rows| ==> exists b :: b in store && b.municipalityName == Some(rows[i].0))
    && (forall b :: b in store && b.municipalityName.Some? ==>
          exists i :: 0 <= i < |rows| && rows[i].0 == b.municipalityName.value)
    && (forall i, j :: 0 <= i < j < |rows| ==> rows[i].1 >= rows[j].1)
  }

  /** Over the aggregate of a store, each collection carries its true, never zero, building count. */
  lemma CollectionCounts(store: seq<Building>, req: Request, rows: seq<(string, int)>, i: int)
    requires IsMunicipalityAggregate(store, rows)
    requires 0 <= i < |rows|
    ensures ListCollections(req, rows)[i].buildingCount == CountOf(store, rows[i].0) >= 1
  {
    var name := rows[i].0;
    assert exists b :: b in store && b.municipalityName == Some(name);
    var b :| b in store && b.municipalityName == Some(name);
    assert b in Where(store, ByMunicipality(name));
  }

  /** The catalog lists the largest collections first. */
  lemma CollectionsOrdered(store: seq<Building>, req: Request, rows: seq<(string, int)>)
    requires IsMunicipalityAggregate(store, rows)
    ensures var items := ListCollections(req, rows);
            forall i, j :: 0 <= i < j < |items| ==> items[i].buildingCount >= items[j].buildingCount
  {
  }

  /** Every municipality of the store has a collection whose `items` link points at it. */
  lemma CollectionsCover(store: seq<Building>, req: Request, rows: seq<(string, int)>, b: Building)
    requires IsMunicipalityAggregate(store, rows)
    requires b in store && b.municipalityName.Some?
    ensures var items := ListCollections(req, rows);
            exists i :: 0 <= i < |items| && items[i].links == [ItemsLink(req.baseUrl, b.municipalityName.value)]
                        && items[i].buildingCount == CountOf(store, b.municipalityName.value)
  {
    var i :| 0 <= i < |rows| && rows[i].0 == b.municipalityName.value;
    assert ListCollections(req, rows)[i] == CollectionOf(req.baseUrl, rows[i].0, rows[i].1);
  }

  /** No two collections of the catalog share an `items` link. */
  lemma CollectionLinksDistinct(store: seq<Building>, req: Request, rows: seq<(string, int)>, i: int, j: int)
    requires IsMunicipalityAggregate(store, rows)
    requires 0 <= i < j < |rows|
    ensures ListCollections(req, rows)[i].links != ListCollections(req, rows)[j].links
  {
  }
}

=== FILE: endpoints.dfy ===
/**
 The four data endpoints: the collection catalog, one municipality's items,
 one building, and the bounding-box search. Each validates its parameters,
 runs a count query and a data query over the same filter, maps the rows to
 Features and assembles the FeatureCollection page (section 3.3 of
 RFC 7946, with the `numberMatched`/`numberReturned` members and paging
 links of section 7.15 of OGC API - Features - Part 1: Core).
 */
module Endpoints {
  import opened Wrappers
  import opened Arith
  import opened Strings
  import opened QueryParams
  import opened Pagination
  import opened Features
  import opened Store

  const LimitDefault := 50
  const LimitMax := 1000

  /** The failures a request can end in. */
  datatype ApiError =
    | ValidationError(fields: seq<QueryField>)   // 422: the offending parameters, in declaration order
    | NotFound(detail: string)               // 404
    | ServerError(detail: string)            // 500

  /** The query parameters the endpoints validate. */
  datatype QueryField = Limit | Offset | MinX | MinY | MaxX | MaxY {
    /** The parameter's name in the query string. */
    function Name(): string {
      match this
      case Limit => "limit"
      case Offset => "offset"
      case MinX => "minx"
      case MinY => "miny"
      case MaxX => "maxx"
      case MaxY => "maxy"
    }
  }

  datatype Paging = Paging(limit: int, offset: int)

  datatype FeatureCollection = FeatureCollection(
    kind: string,
    numberMatched: int,
    numberReturned: int,
    limit: int,
    offset: int,
    links: seq<Link>,
    features: seq<Feature>)

  /** An integer query parameter: its default when absent, `None` when present but not an integer. */
  function IntParam(d: seq<Param>, field: QueryField, default: int): Option<int> {
    match Lookup(d, field.Name())
    case None => Some(default)
    case Some(text) => ParseInt(text)
  }

  /** `Query(LIMIT_DEFAULT, ge=1, le=LIMIT_MAX)`. */
  predicate LimitValid(d: seq<Param>) {
    var v := IntParam(d, Limit, LimitDefault);
    v.Some? && 1 <= v.value <= LimitMax
  }

  /** `Query(0, ge=0)`. */
  predicate OffsetValid(d: seq<Param>) {
    var v := IntParam(d, Offset, 0);
    v.Some? && v.value >= 0
  }

  /**
   FastAPI's check of `limit`: absent, it takes the default 50 and passes;
   present, it passes exactly when it is the text of an integer from 1 to 1000.
   */
  lemma LimitValidCases(d: seq<Param>)
    ensures Lookup(d, "limit").None? ==> LimitValid(d)
    ensures Lookup(d, "limit").Some? && ParseInt(Lookup(d, "limit").value).None? ==> !LimitValid(d)
    ensures forall n :: Lookup(d, "limit") == Some(IntToString(n)) ==> (LimitValid(d) <==> 1 <= n <= LimitMax)
  {
  }

  /**
   FastAPI's check of `offset`: absent, it takes the default 0 and passes;
   present, it passes exactly when it is the text of an integer of at least 0.
   */
  lemma OffsetValidCases(d: seq<Param>)
    ensures Lookup(d, "offset").None? ==> OffsetValid(d)
    ensures Lookup(d, "offset").Some? && ParseInt(Lookup(d, "offset").value).None? ==> !OffsetValid(d)
    ensures forall n :: Lookup(d, "offset") == Some(IntToString(n)) ==> (OffsetValid(d) <==> n >= 0)
  {
  }

  /** The declared fields, in declaration order, that fail `valid`. */
  function Failing(declared: seq<QueryField>, valid: QueryField -> bool): (failed: seq<QueryField>)
    ensures forall x :: x in failed <==> x in declared && !valid(x)
    ensures |failed| <= |declared|
  {
    if |declared| == 0 then []
    else (if valid(declared[0]) then [] else [declared[0]]) + Failing(declared[1..], valid)
  }

  /** The fields of a listing request that fail validation, `limit` before `offset`. */
  function PagingErrors(d: seq<Param>): (fields: seq<QueryField>)
    ensures Limit in fields <==> !LimitValid(d)
    ensures Offset in fields <==> !OffsetValid(d)
  {
    Failing([Limit, Offset], x => (x == Limit ==> LimitValid(d)) && (x == Offset ==> OffsetValid(d)))
  }

  /**
   The validation of `limit` and `offset` that runs before a listing
   handler: both are accepted, or the request fails naming each bad one.
   */
  function ValidatePaging(d: seq<Param>): (r: Result<Paging, ApiError>)
    ensures r.Success? <==> LimitValid(d) && OffsetValid(d)
    ensures r.Success? ==> 1 <= r.value.limit <= LimitMax && r.value.offset >= 0
    ensures r.Success? && Lookup(d, "limit").None? ==> r.value.limit == LimitDefault
    ensures r.Success? && Lookup(d, "limit").Some? ==> ParseInt(Lookup(d, "limit").value) == Some(r.value.limit)
    ensures r.Success? && Lookup(d, "offset").None? ==> r.value.offset == 0
    ensures r.Success? && Lookup(d, "offset").Some? ==> ParseInt(Lookup(d, "offset").value) == Some(r.value.offset)
    ensures r.Failure? ==> r.error.ValidationError?
    ensures r.Failure? ==> (Limit in r.error.fields <==> !LimitValid(d))
    ensures r.Failure? ==> (Offset in r.error.fields <==> !OffsetValid(d))
    ensures r.Failure? ==> forall x :: x in r.error.fields ==> x == Limit || x == Offset
  {
    if LimitValid(d) && OffsetValid(d) then
      Success(Paging(IntParam(d, Limit, LimitDefault).value, IntParam(d, Offset, 0).value))
    else
      Failure(ValidationError(PagingErrors(d)))
  }

  /** A paging link's parameters pass validation and read back as the page they name. */
  lemma ValidateWithPaging(paged: seq<Param>, d: seq<Param>, offset: int, limit: int)
    requires 1 <= limit <= LimitMax && offset >= 0
    requires paged == WithPaging(d, offset, limit)
    ensures ValidatePaging(paged) == Success(Paging(limit, offset))
  {
    WithPagingLookup(d, offset, limit, "");
    assert IntParam(paged, Limit, LimitDefault) == Some(limit);
    assert IntParam(paged, Offset, 0) == Some(offset);
  }

  /** A request whose parameters are a rewritten dictionary validates to the page written into it. */
  lemma RequestValidates(href: string, root: string, d: seq<Param>, offset: int, limit: int)
    requires 1 <= limit <= LimitMax && offset >= 0
    requires ParamDict(Request(href, root)) == WithPaging(d, offset, limit)
    ensures ValidatePaging(ParamDict(Request(href, root))) == Success(Paging(limit, offset))
  {
    ValidateWithPaging(ParamDict(Request(href, root)), d, offset, limit);
  }

  /** A paging link built from a request validates to the page written into it. */
  lemma PageHrefValidates(href: string, req: Request, offset: int, limit: int)
    requires 1 <= limit <= LimitMax && offset >= 0
    requires href == PageHref(req.url, ParamDict(req), offset, limit)
    ensures ValidatePaging(ParamDict(Request(href, req.baseUrl))) == Success(Paging(limit, offset))
  {
    PageHrefRoundTrip(href, req.url, ParamDict(req), offset, limit, req.baseUrl);
    RequestValidates(href, req.baseUrl, ParamDict(req), offset, limit);
  }

  /**
   `[create_geojson_feature_from_row(row, data_cols) for row in results]`:
   all rows mapped in order, or the first failure.
   */
  function FeaturesOf(rows: seq<seq<Value>>): (r: Result<seq<Feature>, MapError>)
    ensures r.Success? <==> forall i :: 0 <= i < |rows| ==> FromRow(rows[i], DataCols).Success?
    ensures r.Success? ==> |r.value| == |rows|
    ensures r.Success? ==> forall i :: 0 <= i < |rows| ==> FromRow(rows[i], DataCols) == Success(r.value[i])
    decreases |rows|
  {
    if |rows| == 0 then Success([])
    else
      match FromRow(rows[0], DataCols)
      case Failure(e) => Failure(e)
      case Success(first) =>
        var rest := FeaturesOf(rows[1..]);
        assert forall i :: 1 <= i < |rows| ==> rows[i] == rows[1..][i - 1];
        match rest
        case Failure(e) => Failure(e)
        case Success(fs) => Success([first] + fs)
  }

  /** The Features of a sequence of buildings, in order. */
  function FeaturesOfBuildings(bs: seq<Building>): seq<Feature> {
    seq(|bs|, i requires 0 <= i < |bs| => FeatureOf(bs[i]))
  }

  /** Rows produced by the data query always map, to the Features of their buildings. */
  lemma DataRowsMap(bs: seq<Building>)
    ensures FeaturesOf(seq(|bs|, i requires 0 <= i < |bs| => DataRow(bs[i]))) == Success(FeaturesOfBuildings(bs))
  {
    var rows := seq(|bs|, i requires 0 <= i < |bs| => DataRow(bs[i]));
    forall i | 0 <= i < |bs| ensures FromRow(rows[i], DataCols) == Success(FeatureOf(bs[i])) {
      DataRowMaps(bs[i]);
    }
    var r := FeaturesOf(rows);
    assert r.Success?;
    assert |r.value| == |bs|;
    forall i | 0 <= i < |bs| ensures r.value[i] == FeaturesOfBuildings(bs)[i] {
      assert FromRow(rows[i], DataCols) == Success(r.value[i]);
    }
    assert r.value == FeaturesOfBuildings(bs);
  }

  /** Every building on a page satisfies the page's filter. */
  lemma PageMatches(store: seq<Building>, f: Filter, limit: int, offset: int)
    requires limit >= 0 && offset >= 0
    ensures var page := LimitOffset(Where(store, f), limit, offset);
            forall i :: 0 <= i < |page| ==> page[i] in store && Matches(page[i], f)
  {
    var matches := Where(store, f);
    var page := LimitOffset(matches, limit, offset);
    forall i | 0 <= i < |page| ensures page[i] in store && Matches(page[i], f) {
      assert page[i] == matches[offset + i];
      assert matches[offset + i] in matches;
    }
  }

  /** `SELECT id, municipality_name, ST_AsGeoJSON(geometry) ... WHERE f LIMIT ? OFFSET ?`. */
  function DataQuery(store: seq<Building>, f: Filter, limit: int, offset: int): (rows: seq<seq<Value>>)
    requires limit >= 0 && offset >= 0
    ensures |rows| == Min(limit, Max(0, CountQuery(store, f) - offset))
    ensures forall i :: 0 <= i < |rows| ==> rows[i] == DataRow(Where(store, f)[offset + i])
  {
    var bs := LimitOffset(Where(store, f), limit, offset);
    seq(|bs|, i requires 0 <= i < |bs| => DataRow(bs[i]))
  }

  /**
   The body shared by the two listing handlers once `limit`/`offset` are
   validated: count query, data query over the same filter, mapping, links.
   */
  function ServePage(store: seq<Building>, req: Request, f: Filter, paging: Paging): (r: Result<FeatureCollection, ApiError>)
    requires paging.limit >= 0 && paging.offset >= 0
    ensures r.Success?
    ensures r.value.kind == "FeatureCollection"
    ensures r.value.numberMatched == CountQuery(store, f)
    ensures r.value.numberReturned == |r.value.features|
    ensures r.value.limit == paging.limit && r.value.offset == paging.offset
    ensures r.value.numberReturned == Min(paging.limit, Max(0, r.value.numberMatched - paging.offset))
    ensures r.value.features == FeaturesOfBuildings(LimitOffset(Where(store, f), paging.limit, paging.offset))
    ensures r.value.links == CreatePaginationLinks(req, r.value.numberMatched, paging.limit, paging.offset)
  {
    var totalCount := CountQuery(store, f);
    var rows := DataQuery(store, f, paging.limit, paging.offset);
    DataRowsMap(LimitOffset(Where(store, f), paging.limit, paging.offset));
    match FeaturesOf(rows)
    case Failure(_) => Failure(ServerError("Internal Server Error"))
    case Success(features) =>
      Success(FeatureCollection(
        "FeatureCollection",
        totalCount,
        |features|,
        paging.limit,
        paging.offset,
        CreatePaginationLinks(req, totalCount, paging.limit, paging.offset),
        features))
  }

  /** `get_municipality_items`: the page of one municipality's buildings the request asks for. */
  function GetMunicipalityItems(store: seq<Building>, req: Request, municipality: string): (r: Result<FeatureCollection, ApiError>)
    ensures r.Success? <==> ValidatePaging(ParamDict(req)).Success?
    ensures r.Failure? ==> r == Failure(ValidatePaging(ParamDict(req)).error)
    ensures r.Success? ==> r.value.numberMatched == CountOf(store, municipality)
    ensures r.Success? ==> Success(Paging(r.value.limit, r.value.offset)) == ValidatePaging(ParamDict(req))
    ensures r.Success? ==> 1 <= r.value.limit <= LimitMax && r.value.offset >= 0
    ensures r.Success? ==> r.value.links == CreatePaginationLinks(req, r.value.numberMatched, r.value.limit, r.value.offset)
    ensures r.Success? ==>
              r.value.numberReturned == |r.value.features| == Min(r.value.limit, Max(0, r.value.numberMatched - r.value.offset))
    ensures r.Success? ==>
              r.value.features == FeaturesOfBuildings(LimitOffset(Where(store, ByMunicipality(municipality)), r.value.limit, r.value.offset))
  {
    match ValidatePaging(ParamDict(req))
    case Failure(e) => Failure(e)
    case Success(paging) =>
      ServePage(store, req, ByMunicipality(municipality), paging)
  }

  /** Every Feature on a municipality's page belongs to that municipality. */
  lemma MunicipalityItemsBelong(store: seq<Building>, req: Request, municipality: string)
    requires GetMunicipalityItems(store, req, municipality).Success?
    ensures var features := GetMunicipalityItems(store, req, municipality).value.features;
            forall i :: 0 <= i < |features| ==> features[i].properties.municipalityName == Str(municipality)
  {
    var page := GetMunicipalityItems(store, req, municipality).value;
    var buildings := LimitOffset(Where(store, ByMunicipality(municipality)), page.limit, page.offset);
    PageMatches(store, ByMunicipality(municipality), page.limit, page.offset);
    forall i | 0 <= i < |page.features| ensures page.features[i].properties.municipalityName == Str(municipality) {
      assert page.features[i] == FeatureOf(buildings[i]);
      assert Matches(buildings[i], ByMunicipality(municipality));
    }
  }

  /** An unknown municipality is not an error: it yields an empty page with `numberMatched = 0`. */
  lemma UnknownMunicipalityIsEmpty(store: seq<Building>, req: Request, municipality: string)
    requires forall b :: b in store ==> b.municipalityName != Some(municipality)
    requires ValidatePaging(ParamDict(req)).Success?
    ensures GetMunicipalityItems(store, req, municipality).Success?
    ensures GetMunicipalityItems(store, req, municipality).value.numberMatched == 0
    ensures GetMunicipalityItems(store, req, municipality).value.features == []
  {
    CountZeroIff(store, ByMunicipality(municipality));
  }

  /** What a successful listing response says about its page, in terms of the store. */
  lemma ItemsPage(store: seq<Building>, req: Request, municipality: string)
    requires GetMunicipalityItems(store, req, municipality).Success?
    ensures var page := GetMunicipalityItems(store, req, municipality).value;
            var matches := Where(store, ByMunicipality(municipality));
            && 1 <= page.limit && page.offset >= 0
            && page.numberMatched == |matches|
            && page.features == FeaturesOfBuildings(LimitOffset(matches, page.limit, page.offset))
            && (HasRel(page.links, NextRel) <==> page.offset + page.limit < |matches|)
            && (HasRel(page.links, NextRel) ==> |page.links| >= 2)
  {
  }

  /** The request a client makes when it follows a page's `next` link. */
  function NextRequest(req: Request, page: FeatureCollection): Request
    requires |page.links| >= 2
  {
    Request(page.links[1].href, req.baseUrl)
  }

  /** How far a valid listing request is from the end of its matches. */
  function Remaining(store: seq<Building>, req: Request, municipality: string): nat {
    match GetMunicipalityItems(store, req, municipality)
    case Failure(_) => 0
    case Success(page) => if page.numberMatched > page.offset then page.numberMatched - page.offset else 0
  }

  /** The `next` link of a valid listing names a valid page: `limit` kept, `offset` advanced by `limit`. */
  lemma NextLinkValidates(req: Request, totalCount: int, limit: int, offset: int, href: string)
    requires 1 <= limit <= LimitMax && offset >= 0 && HasNext(totalCount, limit, offset)
    requires href == CreatePaginationLinks(req, totalCount, limit, offset)[1].href
    ensures ValidatePaging(ParamDict(Request(href, req.baseUrl))) == Success(Paging(limit, offset + limit))
  {
    PageHrefValidates(href, req, offset + limit, limit);
  }

  /** The query of a page's `next` link is the page's own query with `offset` advanced by `limit`. */
  lemma NextRequestParams(req: Request, page: FeatureCollection)
    requires 1 <= page.limit <= LimitMax && page.offset >= 0
    requires page.links == CreatePaginationLinks(req, page.numberMatched, page.limit, page.offset)
    requires HasRel(page.links, NextRel)
    ensures |page.links| >= 2
    ensures ValidatePaging(ParamDict(NextRequest(req, page))) == Success(Paging(page.limit, page.offset + page.limit))
  {
    NextLinkValidates(req, page.numberMatched, page.limit, page.offset, page.links[1].href);
  }

  /**
   Requesting the `next` link of a page gives the page that follows it:
   same filter, same count, same `limit`, `offset` advanced by `limit`.
   */
  lemma NextPageFollows(store: seq<Building>, req: Request, municipality: string)
    requires GetMunicipalityItems(store, req, municipality).Success?
    requires HasRel(GetMunicipalityItems(store, req, municipality).value.links, NextRel)
    ensures var page := GetMunicipalityItems(store, req, municipality).value;
            && |page.links| >= 2
            && var next := GetMunicipalityItems(store, NextRequest(req, page), municipality);
            && next.Success?
            && next.value.offset == page.offset + page.limit
            && next.value.limit == page.limit
            && next.value.numberMatched == page.numberMatched
  {
    var page := GetMunicipalityItems(store, req, municipality).value;
    NextRequestParams(req, page);
  }

  /** Following a `next` link brings a client strictly closer to the end of the matches. */
  lemma NextIsCloser(store: seq<Building>, req: Request, municipality: string)
    requires GetMunicipalityItems(store, req, municipality).Success?
    requires HasRel(GetMunicipalityItems(store, req, municipality).value.links, NextRel)
    ensures var page := GetMunicipalityItems(store, req, municipality).value;
            && |page.links| >= 2
            && Remaining(store, NextRequest(req, page), municipality) < Remaining(store, req, municipality)
  {
    ItemsPage(store, req, municipality);
    NextPageFollows(store, req, municipality);
  }

  /**
   Requesting the `prev` link of a page gives the page at the previous
   offset, with the same `limit` and count.
   */
  lemma PrevPageFollows(store: seq<Building>, req: Request, municipality: string)
    requires GetMunicipalityItems(store, req, municipality).Success?
    requires HasRel(GetMunicipalityItems(store, req, municipality).value.links, PrevRel)
    ensures var page := GetMunicipalityItems(store, req, municipality).value;
            var prev := GetMunicipalityItems(store, Request(page.links[|page.links| - 1].href, req.baseUrl), municipality);
            && prev.Success?
            && prev.value.offset == PrevOffset(page.offset, page.limit)
            && prev.value.offset < page.offset
            && prev.value.limit == page.limit
            && prev.value.numberMatched == page.numberMatched
  {
    var page := GetMunicipalityItems(store, req, municipality).value;
    PrevLinkRetreats(req, page.numberMatched, page.limit, page.offset, "");
    var prev := Request(page.links[|page.links| - 1].href, req.baseUrl);
    ValidateWithPaging(ParamDict(prev), ParamDict(req), PrevOffset(page.offset, page.limit), page.limit);
  }

  /** The features seen by a client that follows `next` links from `req` until there is none. */
  function Crawl(store: seq<Building>, req: Request, municipality: string): seq<Feature>
    decreases Remaining(store, req, municipality)
  {
    match GetMunicipalityItems(store, req, municipality)
    case Failure(_) => []
    case Success(page) =>
      if HasRel(page.links, NextRel) then
        NextIsCloser(store, req, municipality);
        page.features + Crawl(store, NextRequest(req, page), municipality)
      else page.features
  }

  /** One step of a crawl: the current page, then the crawl from its `next` link if there is one. */
  lemma CrawlStep(store: seq<Building>, req: Request, municipality: string)
    requires GetMunicipalityItems(store, req, municipality).Success?
    ensures var page := GetMunicipalityItems(store, req, municipality).value;
            && (HasRel(page.links, NextRel) ==> |page.links| >= 2)
            && Crawl(store, req, municipality) ==
               if HasRel(page.links, NextRel) then page.features + Crawl(store, NextRequest(req, page), municipality)
               else page.features
  {
    ItemsPage(store, req, municipality);
  }

  /** A page that is not the last, followed by everything after it, is everything from its offset on. */
  lemma PageThenRest(matches: seq<Building>, limit: int, offset: int)
    requires limit >= 1 && offset >= 0 && offset + limit < |matches|
    ensures FeaturesOfBuildings(LimitOffset(matches, limit, offset)) + FeaturesOfBuildings(matches[offset + limit..])
            == FeaturesOfBuildings(matches[offset..])
  {
    assert LimitOffset(matches, limit, offset) == matches[offset..offset + limit];
    assert matches[offset..] == matches[offset..offset + limit] + matches[offset + limit..];
    FeaturesOfBuildingsAppend(matches[offset..offset + limit], matches[offset + limit..]);
  }

  /** The last page holds everything from its offset on. */
  lemma LastPage(matches: seq<Building>, limit: int, offset: int)
    requires limit >= 1 && offset >= 0 && offset + limit >= |matches|
    ensures LimitOffset(matches, limit, offset) == matches[Min(offset, |matches|)..]
  {
  }

  lemma FeaturesOfBuildingsAppend(a: seq<Building>, b: seq<Building>)
    ensures FeaturesOfBuildings(a + b) == FeaturesOfBuildings(a) + FeaturesOfBuildings(b)
  {
  }

  /**
   Following `next` links from a page at offset `o` yields every matching
   building from position `o` on, each once, in scan order: the pages
   together are one full pass over the matches.
   */
  lemma {:induction false} CrawlCollectsAll(store: seq<Building>, req: Request, municipality: string)
    requires GetMunicipalityItems(store, req, municipality).Success?
    ensures var matches := Where(store, ByMunicipality(municipality));
            var o := GetMunicipalityItems(store, req, municipality).value.offset;
            Crawl(store, req, municipality) == FeaturesOfBuildings(matches[Min(o, |matches|)..])
    decreases Remaining(store, req, municipality)
  {
    var matches := Where(store, ByMunicipality(municipality));
    var page := GetMunicipalityItems(store, req, municipality).value;
    var o, l := page.offset, page.limit;
    assert 1 <= l && o >= 0 && page.features == FeaturesOfBuildings(LimitOffset(matches, l, o))
           && (HasRel(page.links, NextRel) <==> o + l < |matches|)
           && (HasRel(page.links, NextRel) ==> |page.links| >= 2) by {
      ItemsPage(store, req, municipality);
    }
    if HasRel(page.links, NextRel) {
      var next := NextRequest(req, page);
      assert Crawl(store, req, municipality) == page.features + Crawl(store, next, municipality) by {
        CrawlStep(store, req, municipality);
      }
      assert GetMunicipalityItems(store, next, municipality).Success?
             && GetMunicipalityItems(store, next, municipality).value.offset == o + l by {
        NextPageFollows(store, req, municipality);
      }
      assert Remaining(store, next, municipality) < Remaining(store, req, municipality) by {
        NextIsCloser(store, req, municipality);
      }
      CrawlCollectsAll(store, next, municipality);
      CrawlPieces(matches, l, o, GetMunicipalityItems(store, next, municipality).value.offset,
                  page.features, Crawl(store, next, municipality), Crawl(store, req, municipality));
    } else {
      assert Crawl(store, req, municipality) == page.features by {
        CrawlStep(store, req, municipality);
      }
      LastPage(matches, l, o);
    }
  }

  /** A page, then the crawl from the offset after it, is the crawl from the page's offset. */
  lemma CrawlPieces(matches: seq<Building>, limit: int, offset: int, nextOffset: int,
                    page: seq<Feature>, rest: seq<Feature>, all: seq<Feature>)
    requires limit >= 1 && offset >= 0 && offset + limit < |matches| && nextOffset == offset + limit
    requires page == FeaturesOfBuildings(LimitOffset(matches, limit, offset))
    requires rest == FeaturesOfBuildings(matches[Min(nextOffset, |matches|)..])
    requires all == page + rest
    ensures all == FeaturesOfBuildings(matches[Min(offset, |matches|)..])
  {
    PageThenRest(matches, limit, offset);
  }

  /** A crawl from a request without an `offset` parameter sees every building of the municipality. */
  lemma CrawlFromStart(store: seq<Building>, req: Request, municipality: string)
    requires GetMunicipalityItems(store, req, municipality).Success?
    requires Lookup(ParamDict(req), "offset").None?
    ensures Crawl(store, req, municipality) == FeaturesOfBuildings(Where(store, ByMunicipality(municipality)))
  {
    CrawlCollectsAll(store, req, municipality);
    var matches := Where(store, ByMunicipality(municipality));
    assert matches[0..] == matches;
  }

  /**
   `get_specific_building`: the first row matching both the id and the
   municipality, or 404.
   */
  function GetSpecificBuilding(store: seq<Building>, municipality: string, buildingId: string): (r: Result<Feature, ApiError>)
    ensures r.Failure? <==> forall b :: b in store ==> !(b.id == buildingId && b.municipalityName == Some(municipality))
    ensures r.Failure? ==> r.error == NotFound("Building not found.")
    ensures r.Success? ==> r.value.properties.id == buildingId
    ensures r.Success? ==> r.value.properties.municipalityName == Str(municipality)
    ensures r.Success? ==> r.value.kind == "Feature"
    ensures r.Success? ==> r.value == FeatureOf(Where(store, ByIdAndMunicipality(buildingId, municipality))[0])
  {
    var matches := Where(store, ByIdAndMunicipality(buildingId, municipality));
    if |matches| == 0 then
      Failure(NotFound("Building not found."))
    else
      assert matches[0] in matches;
      DataRowMaps(matches[0]);
      match FromRow(DataRow(matches[0]), DataCols)
      case Failure(_) => Failure(ServerError("Internal Server Error"))
      case Success(feature) => Success(feature)
  }

  /** One bounding-box coordinate: required, and it must read as a number. */
  function Coordinate(d: seq<Param>, field: QueryField, parseFloat: string -> Option<real>): Option<real> {
    match Lookup(d, field.Name())
    case None => None
    case Some(text) => parseFloat(text)
  }

  /** Whether one parameter of a bounding-box request passes validation. */
  predicate BboxFieldValid(d: seq<Param>, parseFloat: string -> Option<real>, field: QueryField) {
    match field
    case Limit => LimitValid(d)
    case Offset => OffsetValid(d)
    case _ => Coordinate(d, field, parseFloat).Some?
  }

  /**
   The parameters of a bounding-box request that fail validation, in
   declaration order: each coordinate that is missing or not a number,
   then `limit`, then `offset`.
   */
  function BboxErrors(d: seq<Param>, parseFloat: string -> Option<real>): (fields: seq<QueryField>)
    ensures MinX in fields <==> Coordinate(d, MinX, parseFloat).None?
    ensures MinY in fields <==> Coordinate(d, MinY, parseFloat).None?
    ensures MaxX in fields <==> Coordinate(d, MaxX, parseFloat).None?
    ensures MaxY in fields <==> Coordinate(d, MaxY, parseFloat).None?
    ensures Limit in fields <==> !LimitValid(d)
    ensures Offset in fields <==> !OffsetValid(d)
  {
    Failing([MinX, MinY, MaxX, MaxY, Limit, Offset], x => BboxFieldValid(d, parseFloat, x))
  }

  predicate CoordinatesValid(d: seq<Param>, parseFloat: string -> Option<real>) {
    && Coordinate(d, MinX, parseFloat).Some? && Coordinate(d, MinY, parseFloat).Some?
    && Coordinate(d, MaxX, parseFloat).Some? && Coordinate(d, MaxY, parseFloat).Some?
  }

  /**
   The validation before `query_by_bbox`: the four coordinates are required
   numbers (their order is not checked), then `limit` and `offset` as for
   the other listing.
   */
  function ValidateBbox(d: seq<Param>, parseFloat: string -> Option<real>): (r: Result<(Bbox, Paging), ApiError>)
    ensures r.Success? <==> CoordinatesValid(d, parseFloat) && LimitValid(d) && OffsetValid(d)
    ensures r.Success? ==> r.value.0 == Bbox(
      Coordinate(d, MinX, parseFloat).value, Coordinate(d, MinY, parseFloat).value,
      Coordinate(d, MaxX, parseFloat).value, Coordinate(d, MaxY, parseFloat).value)
    ensures r.Success? ==> Success(r.value.1) == ValidatePaging(d)
    ensures r.Failure? ==> r.error == ValidationError(BboxErrors(d, parseFloat))
  {
    if CoordinatesValid(d, parseFloat) && LimitValid(d) && OffsetValid(d) then
      var box := Bbox(
        Coordinate(d, MinX, parseFloat).value, Coordinate(d, MinY, parseFloat).value,
        Coordinate(d, MaxX, parseFloat).value, Coordinate(d, MaxY, parseFloat).value);
      Success((box, ValidatePaging(d).value))
    else
      Failure(ValidationError(BboxErrors(d, parseFloat)))
  }

  /**
   `query_by_bbox`: the page of buildings, across all municipalities, whose
   geometry intersects the box.
   */
  function QueryByBbox(store: seq<Building>, req: Request, parseFloat: string -> Option<real>,
                       intersects: (Geometry, Bbox) -> bool): (r: Result<FeatureCollection, ApiError>)
    ensures r.Success? <==> ValidateBbox(ParamDict(req), parseFloat).Success?
    ensures r.Failure? ==> r == Failure(ValidateBbox(ParamDict(req), parseFloat).error)
    ensures r.Success? ==>
              var valid := ValidateBbox(ParamDict(req), parseFloat).value;
              var matches := Where(store, Intersecting(valid.0, intersects));
              && r.value.numberMatched == |matches|
              && valid.1 == Paging(r.value.limit, r.value.offset)
              && r.value.numberReturned == |r.value.features| == Min(r.value.limit, Max(0, r.value.numberMatched - r.value.offset))
              && r.value.links == CreatePaginationLinks(req, r.value.numberMatched, r.value.limit, r.value.offset)
              && r.value.features == FeaturesOfBuildings(LimitOffset(matches, r.value.limit, r.value.offset))
  {
    match ValidateBbox(ParamDict(req), parseFloat)
    case Failure(e) => Failure(e)
    case Success(valid) => ServePage(store, req, Intersecting(valid.0, intersects), valid.1)
  }

  /** Every Feature the bounding-box search returns intersects the requested box. */
  lemma BboxItemsIntersect(store: seq<Building>, req: Request, parseFloat: string -> Option<real>,
                           intersects: (Geometry, Bbox) -> bool)
    requires QueryByBbox(store, req, parseFloat, intersects).Success?
    ensures var box := ValidateBbox(ParamDict(req), parseFloat).value.0;
            var features := QueryByBbox(store, req, parseFloat, intersects).value.features;
            forall i :: 0 <= i < |features| ==> intersects(features[i].geometry, box)
  {
    var box := ValidateBbox(ParamDict(req), parseFloat).value.0;
    var f := Intersecting(box, intersects);
    var page := QueryByBbox(store, req, parseFloat, intersects).value;
    var buildings := LimitOffset(Where(store, f), page.limit, page.offset);
    PageMatches(store, f, page.limit, page.offset);
    forall i | 0 <= i < |page.features| ensures intersects(page.features[i].geometry, box) {
      assert page.features[i] == FeatureOf(buildings[i]);
      assert Matches(buildings[i], f);
    }
  }

  /** A box that meets no building gives an empty page with `numberMatched = 0`, not an error. */
  lemma DisjointBboxIsEmpty(store: seq<Building>, req: Request, parseFloat: string -> Option<real>,
                            intersects: (Geometry, Bbox) -> bool)
    requires ValidateBbox(ParamDict(req), parseFloat).Success?
    requires forall b :: b in store ==> !intersects(b.geometry, ValidateBbox(ParamDict(req), parseFloat).value.0)
    ensures QueryByBbox(store, req, parseFloat, intersects).Success?
    ensures QueryByBbox(store, req, parseFloat, intersects).value.numberMatched == 0
    ensures QueryByBbox(store, req, parseFloat, intersects).value.features == []
  {
    var f := Intersecting(ValidateBbox(ParamDict(req), parseFloat).value.0, intersects);
    CountZeroIff(store, f);
    var page := QueryByBbox(store, req, parseFloat, intersects).value;
    assert page.numberMatched == |Where(store, f)| == 0;
    assert LimitOffset(Where(store, f), page.limit, page.offset) == [];
  }
}

=== FILE: features.dfy ===
/**
 The row-to-Feature mapper: a result row is looked up by column name and
 turned into a GeoJSON Feature (section 3.2 of RFC 7946) whose properties
 are the building's `id` and `municipality_name`. Geometry is kept opaque:
 it is the GeoJSON text the store produced.
 */
module Features {
  import opened Wrappers
  import opened Strings

  /** A value in a result row. */
  datatype Value = Str(s: string) | Int(i: int) | Null

  /** A geometry, kept as the GeoJSON text that encodes it. */
  datatype Geometry = Geometry(geojson: string)

  datatype Properties = Properties(id: string, municipalityName: Value)

  datatype Feature = Feature(kind: string, geometry: Geometry, properties: Properties)

  /** Why a row could not be mapped; each surfaces as a server error. */
  datatype MapError =
    | MissingColumn(name: string)   // `col_map[name]` raises KeyError
    | RowTooShort(name: string)     // `row[i]` raises IndexError
    | MalformedGeometry             // `json.loads` rejects a non-text value

  /** Python's `str(v)`. */
  function PyStr(v: Value): string {
    match v
    case Str(s) => s
    case Int(i) => IntToString(i)
    case Null => "None"
  }

  /**
   `{name: i for i, name in enumerate(cols)}[name]`: the LAST position of
   `name` among the column names, since a later entry overwrites an earlier one.
   */
  function ColumnIndex(cols: seq<string>, name: string): (r: Option<nat>)
    ensures r.None? <==> name !in cols
    ensures r.Some? ==> r.value < |cols| && cols[r.value] == name
    ensures r.Some? ==> forall j :: r.value < j < |cols| ==> cols[j] != name
    decreases |cols|
  {
    if |cols| == 0 then None
    else if cols[|cols| - 1] == name then Some(|cols| - 1)
    else
      var r := ColumnIndex(cols[..|cols| - 1], name);
      assert forall j :: 0 <= j < |cols| - 1 ==> cols[..|cols| - 1][j] == cols[j];
      assert name in cols ==> name in cols[..|cols| - 1];
      r
  }

  /** `row[col_map[name]]`. */
  function Column(row: seq<Value>, cols: seq<string>, name: string): (r: Result<Value, MapError>)
    ensures r.Success? <==> (exists i :: 0 <= i < |cols| && cols[i] == name) && ColumnIndex(cols, name).value < |row|
    ensures r.Success? ==> r.value == row[ColumnIndex(cols, name).value]
  {
    match ColumnIndex(cols, name)
    case None => Failure(MissingColumn(name))
    case Some(i) => if i < |row| then Success(row[i]) else Failure(RowTooShort(name))
  }

  /**
   `create_geojson_feature_from_row`: `id` is rendered with `str`, the
   municipality is taken as is, and the geometry text is parsed.
   */
  function FromRow(row: seq<Value>, cols: seq<string>): (r: Result<Feature, MapError>)
    ensures r.Success? <==>
      && Column(row, cols, "id").Success?
      && Column(row, cols, "municipality_name").Success?
      && Column(row, cols, "geometry_geojson").Success?
      && Column(row, cols, "geometry_geojson").value.Str?
    ensures r.Success? ==> r.value.kind == "Feature"
    ensures r.Success? ==> r.value.properties.id == PyStr(Column(row, cols, "id").value)
    ensures r.Success? ==> r.value.properties.municipalityName == Column(row, cols, "municipality_name").value
    ensures r.Success? ==> r.value.geometry.geojson == Column(row, cols, "geometry_geojson").value.s
  {
    match Column(row, cols, "id")
    case Failure(e) => Failure(e)
    case Success(id) =>
      match Column(row, cols, "municipality_name")
      case Failure(e) => Failure(e)
      case Success(municipality) =>
        match Column(row, cols, "geometry_geojson")
        case Failure(e) => Failure(e)
        case Success(geometry) =>
          match geometry
          case Str(text) => Success(Feature("Feature", Geometry(text), Properties(PyStr(id), municipality)))
          case _ => Failure(MalformedGeometry)
  }

  predicate Distinct(cols: seq<string>) {
    forall i, j :: 0 <= i < j < |cols| ==> cols[i] != cols[j]
  }

  /** `p` is a bijection of `[0, n)` with inverse `q`, both given as lists of their values. */
  predicate IsPermutation(p: seq<int>, q: seq<int>, n: nat) {
    && |p| == n && |q| == n
    && (forall i :: 0 <= i < n ==> 0 <= p[i] < n && q[p[i]] == i)
    && (forall v :: 0 <= v < n ==> 0 <= q[v] < n && p[q[v]] == v)
  }

  /** The reordering of `s` whose `i`-th element is `s[p[i]]`. */
  function Permute<T>(s: seq<T>, p: seq<int>): (r: seq<T>)
    requires |p| == |s| && forall i :: 0 <= i < |p| ==> 0 <= p[i] < |s|
    ensures |r| == |s|
    ensures forall i :: 0 <= i < |s| ==> r[i] == s[p[i]]
  {
    seq(|s|, i requires 0 <= i < |s| => s[p[i]])
  }

  /** Reordering distinct columns together with the row reads every column the same. */
  lemma ColumnPermuted(row: seq<Value>, cols: seq<string>, p: seq<int>, q: seq<int>, name: string)
    requires |row| == |cols| && Distinct(cols) && IsPermutation(p, q, |cols|)
    ensures Column(Permute(row, p), Permute(cols, p), name) == Column(row, cols, name)
  {
    var row', cols' := Permute(row, p), Permute(cols, p);
    if name in cols {
      var i := ColumnIndex(cols, name).value;
      var j := q[i];
      assert cols'[j] == name;
      var j' := ColumnIndex(cols', name).value;
      assert cols[p[j']] == name;
      assert p[j'] == i;
      assert j' == q[p[j']];
    } else {
      assert name !in cols' by {
        forall j | 0 <= j < |cols'| ensures cols'[j] != name {
          assert cols'[j] == cols[p[j]];
        }
      }
    }
  }

  /**
   The mapping looks values up by column name, so the column order of the
   query does not matter: permuting the distinct column names and the row
   alike gives the same Feature (or the same error).
   */
  lemma FromRowPermutation(row: seq<Value>, cols: seq<string>, p: seq<int>, q: seq<int>)
    requires |row| == |cols| && Distinct(cols) && IsPermutation(p, q, |cols|)
    ensures FromRow(Permute(row, p), Permute(cols, p)) == FromRow(row, cols)
  {
    ColumnPermuted(row, cols, p, q, "id");
    ColumnPermuted(row, cols, p, q, "municipality_name");
    ColumnPermuted(row, cols, p, q, "geometry_geojson");
  }
}

=== FILE: pagination.dfy ===
/**
 The pagination link engine: from the request, the number of matching
 features and the current `limit`/`offset` it produces the `self`, `next`
 and `prev` links of a page (section 7.15 of OGC API - Features - Part 1:
 Core). The `next` and `prev` links repeat the request's own query
 parameters with only `offset` and `limit` rewritten.
 */
module Pagination {
  import opened Wrappers
  import opened Arith
  import opened Strings
  import opened QueryParams

  /** The link relations the service emits. */
  datatype Rel = SelfRel | NextRel | PrevRel | ItemsRel

  datatype Link = Link(href: string, rel: Rel, mediaType: string, title: string)

  const GeoJsonMediaType := "application/geo+json"

  /** What the handlers read from the incoming request: its full URL and the service root URL. */
  datatype Request = Request(url: string, baseUrl: string)

  /** `str(request.url).split('?')[0]`: the URL up to, not including, its first `?`. */
  function BaseUrl(url: string): (base: string)
    ensures base == SplitFirst(url, '?').0
    ensures '?' !in base
    ensures '?' !in url ==> base == url
    ensures '?' in url ==> url == base + "?" + QueryString(url)
  {
    SplitHead(url, '?');
    Split(url, '?')[0]
  }

  /** The query string of a URL: everything after its first `?`. */
  function QueryString(url: string): string {
    SplitFirst(url, '?').1
  }

  /** `request.query_params`: the raw `(key, value)` pairs of the query string. */
  function QueryParamsOf(req: Request): seq<Param> {
    ParseQuery(QueryString(req.url))
  }

  /** `dict(request.query_params)`. */
  function ParamDict(req: Request): (d: seq<Param>)
    ensures KeysUnique(d)
    ensures Renderable(d)
  {
    ToDict(QueryParamsOf(req))
  }

  /**
   When the decoded path holds no `?`, the parameters are exactly those of
   the query string that follows it, as the framework reads them.
   */
  lemma ParamDictOfQuery(path: string, query: string, root: string)
    requires '?' !in path
    ensures ParamDict(Request(path + "?" + query, root)) == ToDict(ParseQuery(query))
  {
    SplitFirstOf(path, query, '?');
  }

  /**
   A decoded path `a?b` holding `?` moves the split: the query string read
   from `a?b?q` is `b?q`, so the path's tail is glued onto the first key,
   where the framework reads `q` alone.
   */
  lemma QueryMarkInPath(a: string, b: string, query: string)
    requires '?' !in a
    ensures QueryString(a + "?" + b + "?" + query) == b + "?" + query
    ensures BaseUrl(a + "?" + b + "?" + query) == a
  {
    assert a + "?" + b + "?" + query == a + ['?'] + (b + "?" + query);
    SplitFirstOf(a, b + "?" + query, '?');
  }

  /**
   The parameters of a paging link: `offset` and `limit` set as decimal text,
   every other parameter kept with its value and position.
   */
  function WithPaging(d: seq<Param>, offset: int, limit: int): (r: seq<Param>)
    ensures KeysUnique(d) ==> KeysUnique(r)
    ensures Renderable(d) ==> Renderable(r)
  {
    var o := IntToString(offset);
    var l := IntToString(limit);
    var withOffset := Assign(d, "offset", o);
    if KeysUnique(d) then
      AssignKeepsUnique(d, "offset", o);
      AssignKeepsUnique(withOffset, "limit", l);
      if Renderable(d) then
        AssignKeepsRenderable(d, "offset", o);
        AssignKeepsRenderable(withOffset, "limit", l);
        Assign(withOffset, "limit", l)
      else Assign(withOffset, "limit", l)
    else if Renderable(d) then
      AssignKeepsRenderable(d, "offset", o);
      AssignKeepsRenderable(withOffset, "limit", l);
      Assign(withOffset, "limit", l)
    else Assign(withOffset, "limit", l)
  }

  /**
   In the rewritten parameters `offset` and `limit` read as the decimal text
   of the new values, and every other key reads as before.
   */
  lemma WithPagingLookup(d: seq<Param>, offset: int, limit: int, k: string)
    ensures Lookup(WithPaging(d, offset, limit), "offset") == Some(IntToString(offset))
    ensures Lookup(WithPaging(d, offset, limit), "limit") == Some(IntToString(limit))
    ensures k != "offset" && k != "limit" ==> Lookup(WithPaging(d, offset, limit), k) == Lookup(d, k)
  {
    var o := IntToString(offset);
    var l := IntToString(limit);
    var withOffset := Assign(d, "offset", o);
    AssignLookup(d, "offset", o, "limit");
    AssignLookup(withOffset, "limit", l, "offset");
    AssignLookup(d, "offset", o, k);
    AssignLookup(withOffset, "limit", l, k);
  }

  /**
   The rewritten parameters keep every key of the request in its position,
   and every parameter other than `offset` and `limit` with its value; only
   `offset` and `limit` can be appended.
   */
  lemma WithPagingKeepsPositions(d: seq<Param>, offset: int, limit: int)
    ensures var r := WithPaging(d, offset, limit);
            && |d| <= |r| <= |d| + 2
            && (forall i :: 0 <= i < |d| ==> r[i].0 == d[i].0)
            && (forall i :: 0 <= i < |d| && d[i].0 != "offset" && d[i].0 != "limit" ==> r[i] == d[i])
            && (forall i :: |d| <= i < |r| ==> r[i].0 == "offset" || r[i].0 == "limit")
  {
    var withOffset := Assign(d, "offset", IntToString(offset));
    var r := Assign(withOffset, "limit", IntToString(limit));
    assert forall i :: |d| <= i < |withOffset| ==> withOffset[i].0 == "offset";
  }

  /** Rewriting the paging parameters twice with the same limit keeps only the second offset. */
  lemma WithPagingTwice(d: seq<Param>, first: int, second: int, limit: int)
    ensures WithPaging(WithPaging(d, first, limit), second, limit) == WithPaging(d, second, limit)
  {
    var l := IntToString(limit);
    var a := IntToString(first);
    var b := IntToString(second);
    ReassignFirst(d, "offset", "limit", a, b, l);
    AssignTwice(Assign(d, "offset", b), "limit", l, l);
  }

  /** The href of a paging link: the request URL cut at `?`, then the rewritten query string. */
  function PageHref(url: string, d: seq<Param>, offset: int, limit: int): string {
    BaseUrl(url) + "?" + Render(WithPaging(d, offset, limit))
  }

  /** `max(0, offset - limit)`: the offset of the previous page. */
  function PrevOffset(offset: int, limit: int): (r: int)
    ensures r >= 0
    ensures offset > 0 && limit >= 1 ==> r < offset
    ensures offset >= limit ==> r == offset - limit
    ensures offset < limit ==> r == 0
  {
    Max(0, offset - limit)
  }

  predicate HasNext(totalCount: int, limit: int, offset: int) {
    offset + limit < totalCount
  }

  predicate HasPrev(offset: int) {
    offset > 0
  }

  predicate HasRel(links: seq<Link>, rel: Rel) {
    exists i :: 0 <= i < |links| && links[i].rel == rel
  }

  /**
   `create_pagination_links`. The source writes the `next` parameters into
   the same dict the `prev` branch then rewrites; the `prev` link
   nevertheless carries exactly the request's parameters with the previous
   page's offset.
   */
  function CreatePaginationLinks(req: Request, totalCount: int, limit: int, offset: int): (links: seq<Link>)
    ensures 1 <= |links| <= 3
    ensures links[0] == Link(req.url, SelfRel, GeoJsonMediaType, "Current page")
    ensures |links| == 1 + (if HasNext(totalCount, limit, offset) then 1 else 0)
                         + (if HasPrev(offset) then 1 else 0)
    ensures HasRel(links, NextRel) <==> HasNext(totalCount, limit, offset)
    ensures HasRel(links, PrevRel) <==> HasPrev(offset)
    ensures forall i :: 1 <= i < |links| ==> links[i].rel != SelfRel && links[i].rel != ItemsRel
    ensures HasNext(totalCount, limit, offset) ==>
      links[1] == Link(PageHref(req.url, ParamDict(req), offset + limit, limit), NextRel, GeoJsonMediaType, "Next page")
    ensures HasPrev(offset) ==>
      links[|links| - 1] == Link(PageHref(req.url, ParamDict(req), PrevOffset(offset, limit), limit), PrevRel, GeoJsonMediaType, "Previous page")
  {
    LinksShape(Link(req.url, SelfRel, GeoJsonMediaType, "Current page"),
               NextLinks(req, totalCount, limit, offset),
               PrevLinks(req, totalCount, limit, offset))
  }

  /** Lines 99-104: the `next` link, present when `offset + limit < total_count`. */
  function NextLinks(req: Request, totalCount: int, limit: int, offset: int): (r: seq<Link>)
    ensures |r| == if HasNext(totalCount, limit, offset) then 1 else 0
    ensures |r| == 1 ==>
      r[0] == Link(PageHref(req.url, ParamDict(req), offset + limit, limit), NextRel, GeoJsonMediaType, "Next page")
  {
    if offset + limit < totalCount then
      [Link(BaseUrl(req.url) + "?" + Render(WithPaging(ParamDict(req), offset + limit, limit)), NextRel, GeoJsonMediaType, "Next page")]
    else []
  }

  /**
   Lines 107-112: the `prev` link, present when `offset > 0`, written into
   the dict the `next` branch may already have rewritten.
   */
  function PrevLinks(req: Request, totalCount: int, limit: int, offset: int): (r: seq<Link>)
    ensures |r| == if HasPrev(offset) then 1 else 0
    ensures |r| == 1 ==>
      r[0] == Link(PageHref(req.url, ParamDict(req), PrevOffset(offset, limit), limit), PrevRel, GeoJsonMediaType, "Previous page")
  {
    var params := ParamDict(req);
    var afterNext := if offset + limit < totalCount then WithPaging(params, offset + limit, limit) else params;
    var prevOffset := Max(0, offset - limit);
    if offset > 0 then
      assert PrevOffset(offset, limit) == prevOffset;
      PagingAfterNext(params, afterNext, offset + limit, prevOffset, limit);
      [Link(BaseUrl(req.url) + "?" + Render(WithPaging(afterNext, prevOffset, limit)), PrevRel, GeoJsonMediaType, "Previous page")]
    else []
  }

  /** The links list is `self`, then the optional `next`, then the optional `prev`. */
  function LinksShape(selfLink: Link, nextLinks: seq<Link>, prevLinks: seq<Link>): (links: seq<Link>)
    requires selfLink.rel == SelfRel
    requires |nextLinks| <= 1 && |prevLinks| <= 1
    requires forall i :: 0 <= i < |nextLinks| ==> nextLinks[i].rel == NextRel
    requires forall i :: 0 <= i < |prevLinks| ==> prevLinks[i].rel == PrevRel
    ensures |links| == 1 + |nextLinks| + |prevLinks|
    ensures links[0] == selfLink
    ensures |nextLinks| == 1 ==> links[1] == nextLinks[0]
    ensures |prevLinks| == 1 ==> links[|links| - 1] == prevLinks[0]
    ensures HasRel(links, NextRel) <==> |nextLinks| == 1
    ensures HasRel(links, PrevRel) <==> |prevLinks| == 1
    ensures forall i :: 1 <= i < |links| ==> links[i].rel != SelfRel && links[i].rel != ItemsRel
  {
    var links := [selfLink] + nextLinks + prevLinks;
    assert |nextLinks| == 1 ==> links[1] == nextLinks[0];
    assert |prevLinks| == 1 ==> links[|links| - 1] == prevLinks[0];
    links
  }

  /** Paging a dict that may already hold the `next` page's writes gives the same as paging the original. */
  lemma PagingAfterNext(d: seq<Param>, afterNext: seq<Param>, first: int, second: int, limit: int)
    requires afterNext == d || afterNext == WithPaging(d, first, limit)
    ensures WithPaging(afterNext, second, limit) == WithPaging(d, second, limit)
  {
    if afterNext != d {
      WithPagingTwice(d, first, second, limit);
    }
  }

  /**
   Requesting a paging link's href gives back, as the request's parameter
   dict, exactly the rewritten parameters the link was built from, and the
   href starts with the same URL prefix as the original request.
   */
  lemma PageHrefRoundTrip(href: string, url: string, d: seq<Param>, offset: int, limit: int, root: string)
    requires KeysUnique(d) && Renderable(d)
    requires href == PageHref(url, d, offset, limit)
    ensures BaseUrl(href) == BaseUrl(url)
    ensures ParamDict(Request(href, root)) == WithPaging(d, offset, limit)
  {
    var base := BaseUrl(url);
    var w := WithPaging(d, offset, limit);
    assert href == base + ['?'] + Render(w);
    SplitFirstOf(base, Render(w), '?');
    assert QueryString(href) == Render(w);
    ParseRender(w);
    ToDictOfDict(w);
  }

  /** The query string of the `next` link reads back as the request's own, paged forward. */
  lemma NextLinkQuery(req: Request, totalCount: int, limit: int, offset: int)
    requires HasNext(totalCount, limit, offset)
    ensures ParamDict(Request(CreatePaginationLinks(req, totalCount, limit, offset)[1].href, req.baseUrl))
            == WithPaging(ParamDict(req), offset + limit, limit)
  {
    var d := ParamDict(req);
    var href := CreatePaginationLinks(req, totalCount, limit, offset)[1].href;
    PageHrefRoundTrip(href, req.url, d, offset + limit, limit, req.baseUrl);
  }

  /**
   Following the `next` link re-requests the same listing with `offset`
   advanced by exactly `limit` and `limit` unchanged; every other parameter
   reads as in the original request.
   */
  lemma NextLinkAdvances(req: Request, totalCount: int, limit: int, offset: int, k: string, href: string)
    requires HasNext(totalCount, limit, offset)
    requires href == CreatePaginationLinks(req, totalCount, limit, offset)[1].href
    ensures BaseUrl(href) == BaseUrl(req.url)
    ensures ParamDict(Request(href, req.baseUrl)) == WithPaging(ParamDict(req), offset + limit, limit)
    ensures Lookup(ParamDict(Request(href, req.baseUrl)), "offset") == Some(IntToString(offset + limit))
    ensures Lookup(ParamDict(Request(href, req.baseUrl)), "limit") == Some(IntToString(limit))
    ensures k != "offset" && k != "limit" ==> Lookup(ParamDict(Request(href, req.baseUrl)), k) == Lookup(ParamDict(req), k)
  {
    var d := ParamDict(req);
    PageHrefRoundTrip(href, req.url, d, offset + limit, limit, req.baseUrl);
    WithPagingLookup(d, offset + limit, limit, k);
  }

  /**
   Following the `prev` link re-requests the same listing at the previous
   page's offset with `limit` unchanged.
   */
  lemma PrevLinkRetreats(req: Request, totalCount: int, limit: int, offset: int, k: string)
    requires HasPrev(offset)
    ensures var links := CreatePaginationLinks(req, totalCount, limit, offset);
            var prev := Request(links[|links| - 1].href, req.baseUrl);
            && BaseUrl(prev.url) == BaseUrl(req.url)
            && ParamDict(prev) == WithPaging(ParamDict(req), PrevOffset(offset, limit), limit)
            && Lookup(ParamDict(prev), "offset") == Some(IntToString(PrevOffset(offset, limit)))
            && Lookup(ParamDict(prev), "limit") == Some(IntToString(limit))
            && (k != "offset" && k != "limit" ==> Lookup(ParamDict(prev), k) == Lookup(ParamDict(req), k))
  {
    var d := ParamDict(req);
    var links := CreatePaginationLinks(req, totalCount, limit, offset);
    PageHrefRoundTrip(links[|links| - 1].href, req.url, d, PrevOffset(offset, limit), limit, req.baseUrl);
    WithPagingLookup(d, PrevOffset(offset, limit), limit, k);
  }
}

=== FILE: query_params.dfy ===
/**
 Query parameters as an association list of `(key, value)` pairs. A Python
 `dict` is an association list whose keys are unique; assigning to a present
 key keeps its position and assigning to a missing key appends it. The
 request's raw parameters come from the query string the way Starlette reads
 it (`parse_qsl` with blank values kept), and the paging links write a
 parameter list back as `k=v` pieces joined with `&`, without percent-encoding.
 */
module QueryParams {
  import opened Wrappers
  import opened Strings

  type Param = (string, string)

  predicate HasKey(ps: seq<Param>, k: string) {
    exists i :: 0 <= i < |ps| && ps[i].0 == k
  }

  /** The shape of a Python dict: no key occurs twice. */
  predicate KeysUnique(ps: seq<Param>) {
    forall i, j :: 0 <= i < j < |ps| ==> ps[i].0 != ps[j].0
  }

  /** The position of the first pair with key `k`. */
  function KeyIndex(ps: seq<Param>, k: string): (r: Option<nat>)
    ensures r.None? <==> !HasKey(ps, k)
    ensures r.Some? ==> r.value < |ps| && ps[r.value].0 == k
    ensures r.Some? ==> forall j :: 0 <= j < r.value ==> ps[j].0 != k
    decreases |ps|
  {
    if |ps| == 0 then None
    else if ps[0].0 == k then Some(0)
    else
      var r := KeyIndex(ps[1..], k);
      assert forall i :: 1 <= i < |ps| ==> ps[i] == ps[1..][i - 1];
      if r.None? then None else Some(r.value + 1)
  }

  /** `d.get(k)`: the value stored under `k`. */
  function Lookup(ps: seq<Param>, k: string): (r: Option<string>)
    ensures r.None? <==> !HasKey(ps, k)
    ensures r.Some? ==> (k, r.value) in ps
  {
    match KeyIndex(ps, k)
    case None => None
    case Some(i) => Some(ps[i].1)
  }

  /**
   `d[k] = v`: the value under an existing key is replaced in place; a new
   key is appended at the end. Every other entry keeps its key, value and
   position.
   */
  function Assign(ps: seq<Param>, k: string, v: string): (r: seq<Param>)
    ensures |r| == if HasKey(ps, k) then |ps| else |ps| + 1
    ensures forall i :: 0 <= i < |ps| ==> r[i].0 == ps[i].0
    ensures forall i :: 0 <= i < |ps| && ps[i].0 != k ==> r[i] == ps[i]
    ensures !HasKey(ps, k) ==> r[|ps|] == (k, v)
    ensures HasKey(ps, k) ==> r[KeyIndex(ps, k).value] == (k, v)
    ensures forall i :: 0 <= i < |r| ==> r[i] == (k, v) || (i < |ps| && r[i] == ps[i])
  {
    match KeyIndex(ps, k)
    case None => ps + [(k, v)]
    case Some(i) => ps[i := (k, v)]
  }

  /** Two lists with the same keys at every position find any key at the same position. */
  lemma SameKeysSameIndex(ps: seq<Param>, qs: seq<Param>, k: string)
    requires |ps| <= |qs|
    requires forall i :: 0 <= i < |ps| ==> ps[i].0 == qs[i].0
    requires HasKey(ps, k)
    ensures KeyIndex(qs, k) == KeyIndex(ps, k)
  {
    var i := KeyIndex(ps, k).value;
    assert qs[i].0 == k;
    var j := KeyIndex(qs, k).value;
    assert !(j < i) && !(i < j);
  }

  /** After `d[k] = v`, `d.get(k)` is `v` and every other key reads as before. */
  lemma AssignLookup(ps: seq<Param>, k: string, v: string, k': string)
    ensures Lookup(Assign(ps, k, v), k) == Some(v)
    ensures k' != k ==> Lookup(Assign(ps, k, v), k') == Lookup(ps, k')
  {
    var r := Assign(ps, k, v);
    if HasKey(ps, k) {
      SameKeysSameIndex(ps, r, k);
    } else {
      var j := KeyIndex(r, k).value;
      assert r[|ps|].0 == k;
      assert !(j < |ps|);
    }
    if k' != k {
      if HasKey(ps, k') {
        SameKeysSameIndex(ps, r, k');
      } else {
        assert !HasKey(r, k');
      }
    }
  }

  /** Assignment keeps a dict a dict. */
  lemma AssignKeepsUnique(ps: seq<Param>, k: string, v: string)
    requires KeysUnique(ps)
    ensures KeysUnique(Assign(ps, k, v))
  {
    var r := Assign(ps, k, v);
    forall i, j | 0 <= i < j < |r| ensures r[i].0 != r[j].0 {
      if j >= |ps| {
        assert !HasKey(ps, k) && r[j] == (k, v);
        assert r[i].0 == ps[i].0;
      }
    }
  }

  /** Assigning a writable key and value keeps a list writable. */
  lemma AssignKeepsRenderable(ps: seq<Param>, k: string, v: string)
    requires Renderable(ps)
    requires '&' !in k && '=' !in k && '&' !in v
    ensures Renderable(Assign(ps, k, v))
  {
  }

  /** Assigning the same key twice keeps only the second value. */
  lemma AssignTwice(ps: seq<Param>, k: string, a: string, b: string)
    ensures Assign(Assign(ps, k, a), k, b) == Assign(ps, k, b)
  {
    var once := Assign(ps, k, a);
    var lhs := Assign(once, k, b);
    var rhs := Assign(ps, k, b);
    if HasKey(ps, k) {
      SameKeysSameIndex(ps, once, k);
    } else {
      var j := KeyIndex(once, k).value;
      assert once[|ps|].0 == k;
      assert !(j < |ps|);
    }
    assert |lhs| == |rhs|;
    assert forall i :: 0 <= i < |lhs| ==> lhs[i] == rhs[i];
  }

  /** The position `d[k] = v` writes to: that of the key, or one past the end. */
  function Slot(ps: seq<Param>, k: string): nat {
    match KeyIndex(ps, k)
    case None => |ps|
    case Some(i) => i
  }

  /** `d[k] = v` entry by entry: the pair at the key's slot, everything else as before. */
  lemma AssignPointwise(ps: seq<Param>, k: string, v: string)
    ensures Slot(ps, k) <= |ps|
    ensures |Assign(ps, k, v)| == if Slot(ps, k) == |ps| then |ps| + 1 else |ps|
    ensures forall i :: 0 <= i < |Assign(ps, k, v)| ==>
              Assign(ps, k, v)[i] == if i == Slot(ps, k) then (k, v) else ps[i]
  {
  }

  /** Lists with the same keys at the same positions have the same slot for every key. */
  lemma SameKeysSameSlot(ps: seq<Param>, qs: seq<Param>, k: string)
    requires |ps| == |qs|
    requires forall i :: 0 <= i < |ps| ==> ps[i].0 == qs[i].0
    ensures Slot(ps, k) == Slot(qs, k)
  {
    if HasKey(ps, k) {
      SameKeysSameIndex(ps, qs, k);
    } else {
      assert !HasKey(qs, k);
    }
  }

  /** Where the assignments of `ReassignFirst` write: `k1` keeps its slot, and it differs from `k2`'s. */
  lemma ReassignSlots(ps: seq<Param>, k1: string, k2: string, a: string, b: string, w: string)
    requires k1 != k2
    ensures Slot(Assign(ps, k1, a), k2) == Slot(Assign(ps, k1, b), k2)
    ensures Slot(Assign(Assign(ps, k1, a), k2, w), k1) == Slot(ps, k1)
    ensures Slot(ps, k1) != Slot(Assign(ps, k1, a), k2)
  {
    var withA := Assign(ps, k1, a);
    var x := Assign(withA, k2, w);
    var i1 := Slot(ps, k1);
    AssignPointwise(ps, k1, a);
    AssignPointwise(ps, k1, b);
    SameKeysSameSlot(withA, Assign(ps, k1, b), k2);
    var i2 := Slot(withA, k2);
    AssignPointwise(withA, k2, w);
    assert withA[i1].0 == k1;
    assert Slot(withA, k1) == i1 by {
      if HasKey(ps, k1) {
        SameKeysSameIndex(ps, withA, k1);
      } else {
        var j := KeyIndex(withA, k1).value;
        assert !(j < |ps|);
      }
    }
    SameKeysSameIndex(withA, x, k1);
    if i2 < |withA| {
      assert withA[i2].0 == k2;
    }
  }

  /**
   Re-assigning `k1` after `k1` and then `k2` were assigned gives the same
   list as assigning the final value of `k1` first and then `k2`.
   */
  lemma ReassignFirst(ps: seq<Param>, k1: string, k2: string, a: string, b: string, w: string)
    requires k1 != k2
    ensures Assign(Assign(Assign(ps, k1, a), k2, w), k1, b) == Assign(Assign(ps, k1, b), k2, w)
  {
    var withA := Assign(ps, k1, a);
    var withB := Assign(ps, k1, b);
    var x := Assign(withA, k2, w);
    var lhs := Assign(x, k1, b);
    var rhs := Assign(withB, k2, w);
    ReassignSlots(ps, k1, k2, a, b, w);
    var i1, i2 := Slot(ps, k1), Slot(withA, k2);
    AssignPointwise(ps, k1, a);
    AssignPointwise(ps, k1, b);
    AssignPointwise(withA, k2, w);
    AssignPointwise(withB, k2, w);
    AssignPointwise(x, k1, b);
    assert |lhs| == |rhs|;
    forall i | 0 <= i < |lhs| ensures lhs[i] == rhs[i] {
      if i != i1 && i != i2 {
        assert withA[i] == ps[i] == withB[i];
      }
    }
  }

  /** The value the LAST pair with key `k` carries, if any. */
  function LastValue(raw: seq<Param>, k: string): Option<string>
    decreases |raw|
  {
    if |raw| == 0 then None
    else if raw[|raw| - 1].0 == k then Some(raw[|raw| - 1].1)
    else LastValue(raw[..|raw| - 1], k)
  }

  /**
   `dict(pairs)`: a dict holding each key once, at the position of its
   first occurrence, with the value of its last occurrence.
   */
  function ToDict(raw: seq<Param>): (d: seq<Param>)
    ensures KeysUnique(d)
    ensures Renderable(raw) ==> Renderable(d)
    decreases |raw|
  {
    if |raw| == 0 then []
    else
      var init := raw[..|raw| - 1];
      var prefix := ToDict(init);
      var last := raw[|raw| - 1];
      assert Renderable(raw) ==> Renderable(init) by {
        assert forall i :: 0 <= i < |init| ==> init[i] == raw[i];
      }
      AssignKeepsUnique(prefix, last.0, last.1);
      if Renderable(raw) then
        AssignKeepsRenderable(prefix, last.0, last.1);
        Assign(prefix, last.0, last.1)
      else
        Assign(prefix, last.0, last.1)
  }

  /** In `dict(pairs)` the value under each key is the one its last pair carries. */
  lemma {:induction false} ToDictLastValue(raw: seq<Param>, k: string)
    ensures Lookup(ToDict(raw), k) == LastValue(raw, k)
    decreases |raw|
  {
    if |raw| > 0 {
      var last := raw[|raw| - 1];
      ToDictLastValue(raw[..|raw| - 1], k);
      AssignLookup(ToDict(raw[..|raw| - 1]), last.0, last.1, k);
    }
  }

  /** `dict(pairs)` is built by assigning the pairs one after another. */
  lemma ToDictSnoc(raw: seq<Param>)
    requires |raw| > 0
    ensures ToDict(raw) == Assign(ToDict(raw[..|raw| - 1]), raw[|raw| - 1].0, raw[|raw| - 1].1)
  {
  }

  /**
   `d` holds exactly the keys of `raw`, each once, ordered by where each key
   first occurs in `raw`.
   */
  ghost predicate FirstOccurrenceOrder(raw: seq<Param>, d: seq<Param>) {
    && (forall k :: HasKey(d, k) <==> HasKey(raw, k))
    && (forall i :: 0 <= i < |d| ==> KeyIndex(raw, d[i].0).Some?)
    && (forall i, j :: 0 <= i < j < |d| ==>
          KeyIndex(raw, d[i].0).Some? && KeyIndex(raw, d[j].0).Some? &&
          KeyIndex(raw, d[i].0).value < KeyIndex(raw, d[j].0).value)
  }

  /** Where a key first occurs in a list, against the list without its last pair. */
  lemma KeySnoc(raw: seq<Param>, k: string)
    requires |raw| > 0
    ensures HasKey(raw, k) <==> HasKey(raw[..|raw| - 1], k) || k == raw[|raw| - 1].0
    ensures HasKey(raw[..|raw| - 1], k) ==> KeyIndex(raw, k) == KeyIndex(raw[..|raw| - 1], k)
    ensures !HasKey(raw[..|raw| - 1], k) && k == raw[|raw| - 1].0 ==> KeyIndex(raw, k) == Some(|raw| - 1)
  {
    var n := |raw| - 1;
    var init := raw[..n];
    if HasKey(init, k) {
      assert forall i :: 0 <= i < n ==> init[i].0 == raw[i].0;
      SameKeysSameIndex(init, raw, k);
    } else {
      if k == raw[n].0 {
        assert HasKey(raw, k);
      }
      if HasKey(raw, k) {
        var i := KeyIndex(raw, k).value;
        assert forall j :: 0 <= j < n ==> init[j] == raw[j];
        assert i == n;
      }
    }
  }

  /** Two lists with the same keys at the same positions hold the same keys. */
  lemma SameKeysHasKey(ps: seq<Param>, qs: seq<Param>, k: string)
    requires |ps| == |qs|
    requires forall i :: 0 <= i < |ps| ==> ps[i].0 == qs[i].0
    ensures HasKey(ps, k) <==> HasKey(qs, k)
  {
    if HasKey(ps, k) {
      assert qs[KeyIndex(ps, k).value].0 == k;
    }
    if HasKey(qs, k) {
      assert ps[KeyIndex(qs, k).value].0 == k;
    }
  }

  /** A list with the keys of the dict of the shorter list, one of which is the new key, keeps the order. */
  lemma KeyOrderSameKeys(raw: seq<Param>, prefix: seq<Param>, d: seq<Param>)
    requires |raw| > 0
    requires FirstOccurrenceOrder(raw[..|raw| - 1], prefix)
    requires HasKey(prefix, raw[|raw| - 1].0)
    requires |d| == |prefix| && forall i :: 0 <= i < |d| ==> d[i].0 == prefix[i].0
    ensures FirstOccurrenceOrder(raw, d)
  {
    var n := |raw| - 1;
    forall k ensures HasKey(d, k) <==> HasKey(raw, k) {
      KeySnoc(raw, k);
      SameKeysHasKey(d, prefix, k);
    }
    forall i | 0 <= i < |d| ensures KeyIndex(raw, d[i].0) == KeyIndex(raw[..n], prefix[i].0) {
      KeySnoc(raw, prefix[i].0);
    }
  }

  /** Re-assigning a key the dict already holds keeps its keys and their order. */
  lemma KeyOrderReassign(raw: seq<Param>, prefix: seq<Param>)
    requires |raw| > 0
    requires FirstOccurrenceOrder(raw[..|raw| - 1], prefix)
    requires HasKey(prefix, raw[|raw| - 1].0)
    ensures FirstOccurrenceOrder(raw, Assign(prefix, raw[|raw| - 1].0, raw[|raw| - 1].1))
  {
    KeyOrderSameKeys(raw, prefix, Assign(prefix, raw[|raw| - 1].0, raw[|raw| - 1].1));
  }

  /** Assigning a new key appends it after every key already held. */
  lemma KeyOrderAppend(raw: seq<Param>, prefix: seq<Param>)
    requires |raw| > 0
    requires FirstOccurrenceOrder(raw[..|raw| - 1], prefix)
    requires !HasKey(prefix, raw[|raw| - 1].0)
    ensures FirstOccurrenceOrder(raw, Assign(prefix, raw[|raw| - 1].0, raw[|raw| - 1].1))
  {
    var n := |raw| - 1;
    var last := raw[n];
    var d := Assign(prefix, last.0, last.1);
    AssignFresh(prefix, last.0, last.1);
    assert d == prefix + [last];
    forall k ensures HasKey(d, k) <==> HasKey(raw, k) {
      KeySnoc(raw, k);
      if HasKey(d, k) && k != last.0 {
        assert prefix[KeyIndex(d, k).value].0 == k;
      }
      if HasKey(prefix, k) {
        assert d[KeyIndex(prefix, k).value].0 == k;
      }
      if k == last.0 {
        assert d[|prefix|].0 == k;
      }
    }
    forall i | 0 <= i < |prefix| ensures KeyIndex(raw, d[i].0) == KeyIndex(raw[..n], prefix[i].0) {
      assert d[i] == prefix[i];
      KeySnoc(raw, prefix[i].0);
    }
    KeySnoc(raw, last.0);
  }

  /**
   `dict(pairs)` holds exactly the keys of `pairs`, ordered by where each
   key first occurs.
   */
  lemma {:induction false} ToDictKeyOrder(raw: seq<Param>)
    ensures FirstOccurrenceOrder(raw, ToDict(raw))
    decreases |raw|
  {
    if |raw| > 0 {
      var n := |raw| - 1;
      ToDictKeyOrder(raw[..n]);
      ToDictSnoc(raw);
      if HasKey(ToDict(raw[..n]), raw[n].0) {
        KeyOrderReassign(raw, ToDict(raw[..n]));
      } else {
        KeyOrderAppend(raw, ToDict(raw[..n]));
      }
    }
  }

  /** Assigning a key that is not present appends it. */
  lemma AssignFresh(ps: seq<Param>, k: string, v: string)
    requires !HasKey(ps, k)
    ensures Assign(ps, k, v) == ps + [(k, v)]
  {
  }

  /** Dropping a dict's last entry leaves a dict that does not hold that entry's key. */
  lemma UniqueInit(ps: seq<Param>)
    requires KeysUnique(ps) && |ps| > 0
    ensures KeysUnique(ps[..|ps| - 1])
    ensures !HasKey(ps[..|ps| - 1], ps[|ps| - 1].0)
  {
    var n := |ps| - 1;
    assert forall i :: 0 <= i < n ==> ps[..n][i] == ps[i];
  }

  /** Converting a dict to a dict changes nothing. */
  lemma {:induction false} ToDictOfDict(ps: seq<Param>)
    requires KeysUnique(ps)
    ensures ToDict(ps) == ps
    decreases |ps|
  {
    if |ps| > 0 {
      var n := |ps| - 1;
      var prefix := ps[..n];
      UniqueInit(ps);
      ToDictOfDict(prefix);
      ToDictSnoc(ps);
      AssignFresh(prefix, ps[n].0, ps[n].1);
      assert prefix + [ps[n]] == ps;
    }
  }

  /** The `k=v` piece of each parameter, in order. */
  function Pieces(ps: seq<Param>): seq<string> {
    seq(|ps|, i requires 0 <= i < |ps| => ps[i].0 + "=" + ps[i].1)
  }

  /** `"&".join(f"{k}={v}" for k, v in d.items())`, with no percent-encoding. */
  function Render(ps: seq<Param>): string {
    Join(Pieces(ps), '&')
  }

  /**
   The rendered string of no parameters is empty; that of writable
   parameters splits at `&` into their `k=v` pieces, one per parameter.
   */
  lemma RenderPieces(ps: seq<Param>)
    ensures |ps| == 0 ==> Render(ps) == ""
    ensures Renderable(ps) && |ps| > 0 ==> Split(Render(ps), '&') == Pieces(ps)
  {
    if Renderable(ps) && |ps| > 0 {
      ParsePiecesOfPieces(ps);
      SplitJoin(Pieces(ps), '&');
    }
  }

  /**
   The pairs of a list of `&`-separated pieces: empty pieces are skipped,
   each other piece is split at its first `=`, and a piece without `=` is a
   key with an empty value.
   */
  function ParsePieces(pieces: seq<string>): (ps: seq<Param>)
    requires forall i :: 0 <= i < |pieces| ==> '&' !in pieces[i]
    ensures Renderable(ps)
    decreases |pieces|
  {
    if |pieces| == 0 then []
    else
      var rest := ParsePieces(pieces[1..]);
      if pieces[0] == "" then rest
      else [SplitFirst(pieces[0], '=')] + rest
  }

  /** The raw parameters of a query string, as `parse_qsl(qs, keep_blank_values=True)` reads them. */
  function ParseQuery(qs: string): (ps: seq<Param>)
    ensures Renderable(ps)
  {
    ParsePieces(Split(qs, '&'))
  }

  /**
   Parameters that survive being written out and read back: keys hold
   neither `&` nor `=`, values hold no `&`.
   */
  predicate Renderable(ps: seq<Param>) {
    forall i :: 0 <= i < |ps| ==> '&' !in ps[i].0 && '=' !in ps[i].0 && '&' !in ps[i].1
  }

  lemma {:induction false} ParsePiecesOfPieces(ps: seq<Param>)
    requires Renderable(ps)
    ensures forall i :: 0 <= i < |Pieces(ps)| ==> '&' !in Pieces(ps)[i]
    ensures ParsePieces(Pieces(ps)) == ps
    decreases |ps|
  {
    if |ps| > 0 {
      assert Pieces(ps)[1..] == Pieces(ps[1..]);
      ParsePiecesOfPieces(ps[1..]);
      var piece := Pieces(ps)[0];
      assert piece == ps[0].0 + ['='] + ps[0].1;
      SplitFirstOf(ps[0].0, ps[0].1, '=');
      assert [ps[0]] + ps[1..] == ps;
    }
  }

  /** Reading back a rendered parameter list gives the list itself. */
  lemma ParseRender(ps: seq<Param>)
    requires Renderable(ps)
    ensures ParseQuery(Render(ps)) == ps
  {
    ParsePiecesOfPieces(ps);
    if |ps| == 0 {
      assert Render(ps) == "";
      assert Split("", '&') == [""];
    } else {
      SplitJoin(Pieces(ps), '&');
    }
  }
}

=== FILE: store.dfy ===
/**
 The building table as the handlers see it: a sequence of rows, filters as
 predicates, `SELECT count(*) ... WHERE p` as the number of matching rows,
 and `SELECT ... WHERE p LIMIT ? OFFSET ?` as a slice of the matching rows.
 The count query and the data query of one request use the same filter.
 */
module Store {
  import opened Wrappers
  import opened Arith
  import opened Features

  /** One row of the building table. */
  datatype Building = Building(id: string, municipalityName: Option<string>, geometry: Geometry)

  /** A bounding box in the store's coordinate reference system. */
  datatype Bbox = Bbox(minx: real, miny: real, maxx: real, maxy: real)

  /**
   The WHERE clauses the handlers use. `ST_Intersects` is not interpreted:
   the bounding-box filter carries the intersection test as a predicate.
   */
  datatype Filter =
    | ByMunicipality(name: string)
    | ByIdAndMunicipality(id: string, name: string)
    | Intersecting(box: Bbox, intersects: (Geometry, Bbox) -> bool)

  /** Whether a row satisfies a WHERE clause; SQL `NULL = ?` is never true. */
  predicate Matches(b: Building, f: Filter) {
    match f
    case ByMunicipality(name) => b.municipalityName == Some(name)
    case ByIdAndMunicipality(id, name) => b.id == id && b.municipalityName == Some(name)
    case Intersecting(box, intersects) => intersects(b.geometry, box)
  }

  /** The rows satisfying `f`, in the store's scan order. */
  function Where(store: seq<Building>, f: Filter): (r: seq<Building>)
    ensures |r| <= |store|
    ensures forall b :: b in r <==> b in store && Matches(b, f)
    ensures forall b :: multiset(r)[b] == if Matches(b, f) then multiset(store)[b] else 0
    decreases |store|
  {
    if |store| == 0 then []
    else
      var rest := Where(store[1..], f);
      assert forall b :: b in store <==> b == store[0] || b in store[1..];
      assert store == [store[0]] + store[1..];
      assert multiset(store) == multiset([store[0]]) + multiset(store[1..]);
      if Matches(store[0], f) then [store[0]] + rest else rest
  }

  /** The filter keeps every row exactly when every row matches it. */
  lemma {:induction false} WhereAll(store: seq<Building>, f: Filter)
    ensures |Where(store, f)| == |store| <==> forall b :: b in store ==> Matches(b, f)
    decreases |store|
  {
    if |store| > 0 {
      WhereAll(store[1..], f);
      assert forall b :: b in store <==> b == store[0] || b in store[1..];
    }
  }

  /** `SELECT count(*) FROM overture_buildings WHERE f`. */
  function CountQuery(store: seq<Building>, f: Filter): (n: nat)
    ensures n <= |store|
    ensures n == |store| <==> forall b :: b in store ==> Matches(b, f)
  {
    WhereAll(store, f);
    |Where(store, f)|
  }

  /** Number of buildings of one municipality. */
  function CountOf(store: seq<Building>, name: string): nat {
    CountQuery(store, ByMunicipality(name))
  }

  /** A filter matching no row counts zero; one matching some row counts at least one. */
  lemma CountZeroIff(store: seq<Building>, f: Filter)
    ensures CountQuery(store, f) == 0 <==> forall b :: b in store ==> !Matches(b, f)
  {
    if CountQuery(store, f) > 0 {
      assert Where(store, f)[0] in Where(store, f);
    }
  }

  /** SQL `LIMIT limit OFFSET offset`: skip `offset` rows, then keep at most `limit`. */
  function LimitOffset<T>(rows: seq<T>, limit: int, offset: int): (r: seq<T>)
    requires limit >= 0 && offset >= 0
    ensures |r| == Min(limit, Max(0, |rows| - offset))
    ensures forall i :: 0 <= i < |r| ==> r[i] == rows[offset + i]
  {
    if offset >= |rows| then [] else rows[offset..Min(|rows|, offset + limit)]
  }

  /** The columns of the data queries: `id, municipality_name, ST_AsGeoJSON(geometry) AS geometry_geojson`. */
  const DataCols: seq<string> := ["id", "municipality_name", "geometry_geojson"]

  function MunicipalityValue(b: Building): Value {
    match b.municipalityName
    case Some(name) => Str(name)
    case None => Null
  }

  /** The data-query row of a building; `ST_AsGeoJSON` yields the geometry's GeoJSON text. */
  function DataRow(b: Building): seq<Value> {
    [Str(b.id), MunicipalityValue(b), Str(b.geometry.geojson)]
  }

  /** The Feature a building is served as. */
  function FeatureOf(b: Building): Feature {
    Feature("Feature", b.geometry, Properties(b.id, MunicipalityValue(b)))
  }

  /** A data-query row always maps, and maps to the building's Feature. */
  lemma DataRowMaps(b: Building)
    ensures FromRow(DataRow(b), DataCols) == Success(FeatureOf(b))
    ensures FeatureOf(b).properties.id == b.id
  {
    assert ColumnIndex(DataCols, "id") == Some(0);
    assert ColumnIndex(DataCols, "municipality_name") == Some(1);
    assert ColumnIndex(DataCols, "geometry_geojson") == Some(2);
  }
}

=== FILE: strings.dfy ===
/**
 The string operations the service relies on, with Python's meaning:
 `str.split` on one character, `str.join`, splitting at the first occurrence
 of a character, `str.replace` of one character, and `str(int)` together with
 the decimal parser that reads an integer query parameter back.
 */
module Strings {
  import opened Wrappers

  /** `sep.join(pieces)` for a one-character separator. */
  function Join(pieces: seq<string>, sep: char): string
    decreases |pieces|
  {
    if |pieces| == 0 then ""
    else if |pieces| == 1 then pieces[0]
    else pieces[0] + [sep] + Join(pieces[1..], sep)
  }

  /** Joining after extending the first piece on the left extends the result on the left. */
  lemma {:induction false} JoinExtendFirst(x: string, pieces: seq<string>, sep: char)
    requires |pieces| >= 1
    ensures Join([x + pieces[0]] + pieces[1..], sep) == x + Join(pieces, sep)
  {
    var ext := [x + pieces[0]] + pieces[1..];
    assert ext[1..] == pieces[1..];
    if |pieces| > 1 {
      assert Join(ext, sep) == (x + pieces[0]) + [sep] + Join(pieces[1..], sep);
      assert Join(pieces, sep) == pieces[0] + [sep] + Join(pieces[1..], sep);
    }
  }

  /**
   `s.split(sep)`: the maximal separator-free pieces of `s`, in order. There is
   always at least one piece, and joining the pieces gives back `s`.
   */
  function Split(s: string, sep: char): (pieces: seq<string>)
    ensures |pieces| >= 1
    ensures forall i :: 0 <= i < |pieces| ==> sep !in pieces[i]
    ensures Join(pieces, sep) == s
    decreases |s|
  {
    if |s| == 0 then [""]
    else
      var rest := Split(s[1..], sep);
      if s[0] == sep then
        assert ([""] + rest)[1..] == rest;
        [""] + rest
      else
        JoinExtendFirst([s[0]], rest, sep);
        assert [s[0]] + s[1..] == s;
        [[s[0]] + rest[0]] + rest[1..]
  }

  /** Splitting a string whose separator-free head is `x` puts `x` in front of the first piece. */
  lemma {:induction false} SplitPrefix(x: string, s: string, sep: char)
    requires sep !in x
    ensures Split(x + s, sep) == [x + Split(s, sep)[0]] + Split(s, sep)[1..]
    decreases |x|
  {
    if |x| == 0 {
      assert x + s == s;
      assert x + Split(s, sep)[0] == Split(s, sep)[0];
      assert [x + Split(s, sep)[0]] + Split(s, sep)[1..] == Split(s, sep);
    } else {
      assert (x + s)[1..] == x[1..] + s;
      SplitPrefix(x[1..], s, sep);
      assert [x[0]] + (x[1..] + Split(s, sep)[0]) == x + Split(s, sep)[0];
    }
  }

  /** Split undoes Join when no piece contains the separator. */
  lemma {:induction false} SplitJoin(pieces: seq<string>, sep: char)
    requires |pieces| >= 1
    requires forall i :: 0 <= i < |pieces| ==> sep !in pieces[i]
    ensures Split(Join(pieces, sep), sep) == pieces
    decreases |pieces|
  {
    if |pieces| == 1 {
      SplitPrefix(pieces[0], "", sep);
      assert pieces[0] + "" == pieces[0];
    } else {
      var tail := Join(pieces[1..], sep);
      SplitJoin(pieces[1..], sep);
      assert Join(pieces, sep) == pieces[0] + ([sep] + tail);
      SplitPrefix(pieces[0], [sep] + tail, sep);
      assert ([sep] + tail)[1..] == tail;
      assert Split([sep] + tail, sep) == [""] + pieces[1..];
      assert pieces[0] + "" == pieces[0];
      assert [pieces[0]] + pieces[1..] == pieces;
    }
  }

  /**
   `s.partition(sep)` without the separator: the text before the first `sep`
   and the text after it; `(s, "")` when `sep` does not occur.
   */
  function SplitFirst(s: string, sep: char): (parts: (string, string))
    ensures sep !in parts.0
    ensures sep in s ==> s == parts.0 + [sep] + parts.1
    ensures sep !in s ==> parts == (s, "")
    decreases |s|
  {
    if |s| == 0 then ("", "")
    else if s[0] == sep then ("", s[1..])
    else
      var p := SplitFirst(s[1..], sep);
      assert [s[0]] + s[1..] == s;
      assert sep in s ==> sep in s[1..];
      ([s[0]] + p.0, p.1)
  }

  /** The decomposition around the first separator is unique. */
  lemma {:induction false} SplitFirstOf(before: string, after: string, sep: char)
    requires sep !in before
    ensures SplitFirst(before + [sep] + after, sep) == (before, after)
    decreases |before|
  {
    var s := before + [sep] + after;
    if |before| == 0 {
      assert s[1..] == after;
    } else {
      assert s[1..] == before[1..] + [sep] + after;
      SplitFirstOf(before[1..], after, sep);
      assert [before[0]] + before[1..] == before;
    }
  }

  /** The first piece of `Split` is the part before the first separator. */
  lemma {:induction false} SplitHead(s: string, sep: char)
    ensures Split(s, sep)[0] == SplitFirst(s, sep).0
    decreases |s|
  {
    if |s| > 0 && s[0] != sep {
      SplitHead(s[1..], sep);
    }
  }

  /**
   `s.replace(c, repl)` for a single character `c`: every occurrence of `c`
   is replaced by `repl`, every other character is kept in place.
   */
  function Replace(s: string, c: char, repl: string): (r: string)
    ensures c !in repl ==> c !in r
    ensures c !in s ==> r == s
    ensures |repl| <= 1 ==> |r| <= |s|
    ensures forall ch :: ch in r ==> (ch in s && ch != c) || ch in repl
    ensures |repl| == 1 ==> |r| == |s| && forall i :: 0 <= i < |s| ==> r[i] == (if s[i] == c then repl[0] else s[i])
    decreases |s|
  {
    if |s| == 0 then ""
    else
      assert [s[0]] + s[1..] == s;
      (if s[0] == c then repl else [s[0]]) + Replace(s[1..], c, repl)
  }

  /** A single character is replaced by `repl` when it is `c` and kept otherwise. */
  lemma ReplaceChar(ch: char, c: char, repl: string)
    ensures Replace([ch], c, repl) == if ch == c then repl else [ch]
  {
    assert [ch][1..] == "";
  }

  /** Replacement works piece by piece: with `ReplaceChar` this fixes the result of every input. */
  lemma {:induction false} ReplaceAppend(a: string, b: string, c: char, repl: string)
    ensures Replace(a + b, c, repl) == Replace(a, c, repl) + Replace(b, c, repl)
    decreases |a|
  {
    if |a| == 0 {
      assert a + b == b;
    } else {
      assert (a + b)[0] == a[0];
      assert (a + b)[1..] == a[1..] + b;
      ReplaceAppend(a[1..], b, c, repl);
    }
  }

  predicate IsDigit(ch: char) {
    '0' <= ch <= '9'
  }

  /** A non-empty run of decimal digits. */
  predicate IsDigits(s: string) {
    |s| >= 1 && forall i :: 0 <= i < |s| ==> IsDigit(s[i])
  }

  function DigitChar(d: nat): (ch: char)
    requires d < 10
    ensures IsDigit(ch)
    ensures ch as int - '0' as int == d
  {
    ('0' as int + d) as char
  }

  /** The value of a string of decimal digits, most significant first. */
  function DigitsValue(s: string): nat
    requires forall i :: 0 <= i < |s| ==> IsDigit(s[i])
    decreases |s|
  {
    if |s| == 0 then 0
    else
      assert IsDigit(s[|s| - 1]);
      DigitsValue(s[..|s| - 1]) * 10 + (s[|s| - 1] as int - '0' as int)
  }

  /** Decimal notation of a natural number without leading zeros. */
  function NatToString(n: nat): (r: string)
    ensures IsDigits(r)
    decreases n
  {
    if n < 10 then [DigitChar(n)]
    else NatToString(n / 10) + [DigitChar(n % 10)]
  }

  lemma {:induction false} NatToStringValue(n: nat)
    ensures DigitsValue(NatToString(n)) == n
    decreases n
  {
    var r := NatToString(n);
    if n < 10 {
      assert r[..|r| - 1] == "";
    } else {
      assert r[..|r| - 1] == NatToString(n / 10);
      NatToStringValue(n / 10);
    }
  }

  /**
   Reads an integer written in decimal, optionally preceded by `-`; `None`
   for any other text.
   */
  function ParseInt(s: string): Option<int> {
    if IsDigits(s) then Some(DigitsValue(s) as int)
    else if |s| >= 2 && s[0] == '-' && IsDigits(s[1..]) then Some(0 - DigitsValue(s[1..]))
    else None
  }

  /**
   Python's `str(i)` for an integer: only digits and a minus sign, and the
   decimal parser reads the value back.
   */
  function IntToString(i: int): (r: string)
    ensures forall k :: 0 <= k < |r| ==> IsDigit(r[k]) || r[k] == '-'
    ensures ParseInt(r) == Some(i)
  {
    if i < 0 then
      var digits := NatToString(-i);
      NatToStringValue(-i);
      assert ("-" + digits)[1..] == digits;
      assert ("-" + digits)[0] == '-' && !IsDigit('-');
      "-" + digits
    else
      NatToStringValue(i);
      NatToString(i)
  }
}

=== FILE: wrappers.dfy ===
/** Option and Result, used throughout the model. */
module Wrappers {

  /** An optional value: Python's `None` or a present value. */
  datatype Option<+T> = None | Some(value: T)

  /** The outcome of an operation that can fail with an error of type `E`. */
  datatype Result<+R, +E> = Success(value: R) | Failure(error: E)
}

/** Integer helpers mirroring Python's built-in `min` and `max`. */
module Arith {

  function Min(a: int, b: int): (m: int)
    ensures m <= a && m <= b
    ensures m == a || m == b
  {
    if a <= b then a else b
  }

  function Max(a: int, b: int): (m: int)
    ensures m >= a && m >= b
    ensures m == a || m == b
  {
    if a >= b then a else b
  }
}
